=== FILE: README.md ===
# grpcmock in Dafny

A model of the core of `grpcmock`, a Rust library for mock gRPC servers. A test
declares mocks: request/response pairs, grouped by gRPC method, in a mock set.
The server answers each incoming call with the first mock whose request bytes
equal the bytes received. If no mock matches, it answers with `NotFound`.

The model covers:

- **Method addressing** (`Method`): `GrpcMethod::new` enforces the naming rule.
  The last dot-separated segment of the service must start uppercase, and so
  must the method name. `path`/`Display` print a method. `FromStr` parses a
  request path back, with `str::split` modelled exactly.
- **Mocks and the registry** (`Mocks`):
  - the `MockBody`/`JsonMockBody` shapes and body equality, where a stream
    equals the concatenation of its chunks;
  - the request and response builders, and `grpc_code`;
  - `Mock::new`, `encode_body` and `from_json`, with JSON decoding and protobuf
    encoding as an abstract `Encoder` parameter;
  - `MockFile::read` after YAML decoding;
  - `insert`, `insert_from_file` and `find`.
- **Status mapping and framing** (`Status`, `Framing`):
  - the crate's HTTP-to-gRPC status table and `from_u16`;
  - the Length-Prefixed-Message envelope that `to_bytes` writes, checked
    against an independently written reader.
- **The server** (`Server`):
  - the construction check of `MockServer::new`;
  - the decision logic of `handle`, as `Dispatch`/`Handle`;
  - the headers `grpc_response` builds: `grpc-status` holds the code's
    number in canonical decimal (no leading zeros), which reads back as the
    code, and `grpc-message` holds the raw text the crate sends.
- **Test outcomes** (`Scenarios`): the outcomes the integration tests expect,
  proved for every choice of the encoded messages, plus an illustration on
  the `example.Hello` unary method of how a `Mock::new` mock answers (no test
  builds that registry; `Scenarios.GenerateIsOk` is the test that does).

Supporting modules:

- `Wrappers`: `Option`, `Result`, and `Traverse`, which models
  `collect::<Result<Vec<_>, _>>()`.
- `Errors`: the error type and its `Display` text.
- `Bytes`: bytes and concatenation.
- `Headers`: header lists, decimal header values, and the header-value
  alphabet.

Two properties of path parsing that follow from the code:

- **Empty path pieces.** `from_str` only checks that the path splits into two
  pieces, so `//` parses to the method with an empty service and an empty
  name (`Method.EmptyPiecesAccepted`).
- **Round trip.** Printing a method and parsing the result gives the method
  back only when neither its service nor its name contains `/`
  (`Method.RoundTrip`). `new` accepts such a `/`, and the printed path then no
  longer parses (`Method.SlashBreaksRoundTrip`).

## Model

| member | source | states |
|---|---|---|
| Wrappers.Traverse | grpcmock/src/mock.rs:149-152 | collecting a list of results succeeds iff every element succeeds, giving the values in order; otherwise it gives the error of the first failing element |
| Errors.Display | grpcmock/src/lib.rs:15-22 | an `Invalid` error displays as `invalid: ` followed by its message, a JSON error as `json error: ` followed by its message |
| Bytes.ConcatAppend | grpcmock/src/mock.rs:293 | concatenating two lists of chunks one after the other gives the two concatenations joined |
| Bytes.Concat | grpcmock/src/mock.rs:155 | `flatten().collect()` over a list of byte strings, and `data.concat()` (mock.rs:293): the chunks joined in order, with concatenation distributing over list appending as `Bytes.ConcatAppend` states |
| Bytes.SplitChunk | grpcmock/src/mock.rs:288-296 | splitting any chunk of a stream in two leaves its concatenation unchanged |
| Status.Value | grpcmock/src/server.rs:134 | each code's number is at most 16, and `from_i32` reads that number back as the same code |
| Status.ValueInjective | grpcmock/src/server.rs:134 | two codes have the same number iff they are the same code |
| Status.FromHttp | grpcmock/src/utils.rs:21-37 | the result is `Unknown` exactly for the statuses outside the table, and always one of the eight codes the table names |
| Status.FromHttpPreimages | grpcmock/src/utils.rs:21-37 | for each code, the exact set of HTTP statuses that map to it; only 200 maps to `Ok`, only 404 to `NotFound`, and 400 or 422 to `Internal` |
| Status.FromU16 | grpcmock/src/utils.rs:16-19 | a number is rejected iff it lies outside 100..999; any other number maps as `from_http` maps it |
| Framing.BigEndian32 | grpcmock/src/utils.rs:62 | `put_u32` writes four bytes that read back, most significant first, as the number |
| Framing.BigEndian32OfFromBigEndian32 | grpcmock/src/utils.rs:62 | every four bytes are the big-endian encoding of the number they read as |
| Framing.Frame | grpcmock/src/utils.rs:51-65 | a frame is five bytes longer than its message, starts with flag 0, then the length modulo 2^32 in big-endian, then the message unchanged |
| Framing.FrameInjective | grpcmock/src/utils.rs:51-65 | two messages have equal frames iff the messages are equal |
| Framing.ParseFrameOfFrame | grpcmock/src/utils.rs:59-62 | an independent reader recovers the message and the bytes after it iff the message length fits in 32 bits |
| Framing.FrameOfParseFrame | grpcmock/src/utils.rs:51-65 | whatever the reader accepts is the frame of a message shorter than 2^32 bytes, followed by the rest |
| Framing.ParseFramesOfEncodeFrames | grpcmock/src/utils.rs:51-65 | frames written back to back read back as the list of messages they came from |
| Framing.EncodeFramesIsConcat | grpcmock/src/mock.rs:155 | frames written back to back are the concatenation of the individual frames |
| Headers.Lookup | grpcmock/src/server.rs:131-137 | looking a header up gives nothing iff no header has that name; otherwise it gives the value of the first header with that name |
| Headers.Decimal | grpcmock/src/server.rs:134 | a number renders as a non-empty string of decimal digits with no leading zero |
| Headers.ParseDecimalOfDecimal | grpcmock/src/server.rs:134 | a rendered number reads back as the same number |
| Headers.DecimalIsValidValue | grpcmock/src/server.rs:134 | a rendered number is always a valid header value |
| Method.Split | grpcmock/src/method.rs:16-19 | splitting yields at least one piece, so `last().unwrap()` cannot fail |
| Method.SplitCount | grpcmock/src/method.rs:63-64 | a string splits into one more piece than it has separators |
| Method.SplitPiecesFree | grpcmock/src/method.rs:63 | no piece of a split contains the separator |
| Method.SplitJoin | grpcmock/src/method.rs:63 | joining the pieces with the separator gives back the original string |
| Method.SplitOne | grpcmock/src/method.rs:63-76 | a string with exactly one separator splits into the text before it and the text after it, and neither contains the separator |
| Method.LastSegmentCasing | grpcmock/src/method.rs:16-25 | the segment after the last dot starts uppercase (or is empty) iff the character after the last dot, if there is one, is uppercase |
| Method.UndottedServiceCasing | grpcmock/src/method.rs:16-25 | for a service without dots, the whole service name is checked |
| Method.DottedServiceCasing | grpcmock/src/method.rs:16-25 | for a dotted service, only the segment after the last dot is checked; the package part is free |
| Method.New | grpcmock/src/method.rs:13-30 | construction succeeds iff the service is well cased and the name starts uppercase (or is empty); a bad service gives the service error even when the name is also bad; otherwise the name error; fields are stored unchanged |
| Method.NewIsValid | grpcmock/src/method.rs:13-30 | a constructed method passes construction again unchanged |
| Method.Path | grpcmock/src/method.rs:43-45 | `path()` is `/`, the service, `/` and the name, with nothing else, as `Method.ToStringLayout` states; a valid path without `/` in its parts parses back (`Method.RoundTrip`) |
| Method.ToString | grpcmock/src/method.rs:48-52 | `Display` prints `path()`; its layout is stated by `Method.ToStringLayout` |
| Method.ToStringLayout | grpcmock/src/method.rs:43-52 | a method displays as `/`, its service, `/`, its name, with nothing else |
| Method.FromStr | grpcmock/src/method.rs:57-79 | after removing at most one leading `/`, text without exactly one `/` gives the path error; otherwise parsing is `new` on the text before and after that `/` |
| Method.RoundTrip | grpcmock/src/method.rs:43-79 | a valid method with no `/` in its parts parses back from its printed path |
| Method.ParsedPieces | grpcmock/src/method.rs:57-79 | whatever parses is a valid method with no `/` in its parts, and the text without its leading `/` is service, `/`, name |
| Method.ParsedIsPrinted | grpcmock/src/method.rs:57-79 | whatever parses is valid, has no `/` in its parts, and the text was its path with or without the leading `/` |
| Method.SlashBreaksRoundTrip | grpcmock/src/method.rs:13-79 | the method (`A/b`, `C`) passes construction, but its printed path does not parse |
| Method.EmptyPiecesAccepted | grpcmock/src/method.rs:57-79 | `//` parses to the method with empty service and name, while `/` and the empty string are refused |
| Mocks.Matches | grpcmock/src/mock.rs:288-296 | a body equals some bytes iff those bytes are its payload: nothing, the bytes themselves, or the concatenated chunks |
| Mocks.StreamChunkingIrrelevant | grpcmock/src/mock.rs:288-296 | moving a chunk boundary does not change which bytes a stream matches, and a stream matches what its concatenation matches |
| Mocks.NewRequest | grpcmock/src/mock.rs:190-196 | `MockRequest::new` sets the body and keeps the defaults, no headers and no JSON form, as `Mocks.BodyBuilders` states |
| Mocks.RequestWithHeaders | grpcmock/src/mock.rs:198-201 | `with_headers` replaces the request headers and keeps the other fields, as `Mocks.BodyBuilders` states |
| Mocks.RequestWithBody | grpcmock/src/mock.rs:203-206 | `with_body` replaces the request body and keeps the other fields, as `Mocks.BodyBuilders` states |
| Mocks.NewResponse | grpcmock/src/mock.rs:236-241 | `MockResponse::new` sets the body on the default response (200, no headers, no error), as `Mocks.BodyBuilders` states |
| Mocks.ResponseWithHeaders | grpcmock/src/mock.rs:243-246 | `with_headers` replaces the response headers and keeps the other fields, as `Mocks.BodyBuilders` states |
| Mocks.ResponseWithBody | grpcmock/src/mock.rs:248-251 | `with_body` replaces the response body and keeps the other fields, as `Mocks.BodyBuilders` states |
| Mocks.WithError | grpcmock/src/mock.rs:253-256 | `with_error` sets the error text and keeps the other fields, commuting with `with_http_code`, as `Mocks.ResponseBuilders` states |
| Mocks.WithHttpCode | grpcmock/src/mock.rs:258-261 | `with_http_code` sets the HTTP status and keeps the other fields, and the gRPC code then follows it, as `Mocks.ResponseBuilders` states |
| Mocks.BodyBuilders | grpcmock/src/mock.rs:190-251 | `new` starts from the defaults and sets only the body; `with_headers` and `with_body` replace one field and keep the rest |
| Mocks.GrpcCode | grpcmock/src/mock.rs:267-269 | a response reads as `Ok` iff it was declared with 200, and as `NotFound` iff it was declared with 404 |
| Mocks.ResponseBuilders | grpcmock/src/mock.rs:253-261 | `with_error` and `with_http_code` each set their field and keep the rest, in either order; the gRPC code afterwards follows from the HTTP code set |
| Mocks.NewMock | grpcmock/src/mock.rs:97-101 | `Mock::new` matches exactly the framed request, reads as `Ok` with no error, and answers with the framed response |
| Mocks.FramedMessage | grpcmock/src/mock.rs:145-146 | one JSON text becomes the frame of its encoding; a decoding error is passed through |
| Mocks.FromJson | grpcmock/src/mock.rs:137-161 | an empty body stays empty; a full body becomes the frame of its message; a stream fails iff some text fails, and then with the first failing text's error; an unflattened stream keeps one frame per text; a flattened one becomes a single body |
| Mocks.FlattenKeepsPayload | grpcmock/src/mock.rs:148-158 | the flattened and the streamed form succeed together and carry the same bytes |
| Mocks.FlattenedStreamReadsBack | grpcmock/src/mock.rs:148-155 | a flattened stream is the frames of its messages back to back, and reading those frames recovers the messages |
| Mocks.EncodeBody | grpcmock/src/mock.rs:104-113 | encoding succeeds iff both bodies encode; the request's error wins; only the two bodies change; the request body is never a stream, and the response body is a stream iff its JSON form was |
| Mocks.ReadMocks | grpcmock/src/mock.rs:319-335 | a naming error is returned first; on success every mock is encoded in place and the count is unchanged; a failure is the error of the first mock that fails to encode, every earlier mock having encoded |
| Mocks.Insert | grpcmock/src/mock.rs:55-64 | inserting appends the mock to its method's list, creating the list if needed, and leaves every other method unchanged |
| Mocks.Append | grpcmock/src/mock.rs:43-50 | merging puts the loaded list after the method's existing mocks and leaves every other method unchanged |
| Mocks.AppendIsInsertEach | grpcmock/src/mock.rs:43-64 | merging a loaded list equals inserting its mocks one by one, except that merging an empty list still creates the entry |
| Mocks.InsertFromFile | grpcmock/src/mock.rs:37-52 | a read error leaves the registry unchanged and is returned; otherwise the method's list becomes exactly its existing mocks followed by the loaded mocks, in order, and other methods are untouched |
| Mocks.FirstMatchUnique | grpcmock/src/mock.rs:70 | at most one position is the first match |
| Mocks.FirstMatch | grpcmock/src/mock.rs:70 | the search returns the earliest mock whose request body equals the bytes, or reports that none does |
| Mocks.Find | grpcmock/src/mock.rs:67-71 | nothing is found iff the method has no entry or none of its mocks matches; otherwise the result is the first matching mock of that method |
| Mocks.FirstMatchAppend | grpcmock/src/mock.rs:55-71 | adding a mock at the end never overrides an earlier match; the new mock is found only when nothing before it matches |
| Mocks.FindAfterInsert | grpcmock/src/mock.rs:55-71 | after an insert, lookups of other methods are unchanged, and a request answered before keeps its answer |
| Mocks.FirstMatchOnlyReadsBodies | grpcmock/src/mock.rs:67-71 | lists whose request bodies agree position by position have the same first match, whatever their headers and responses |
| Server.NewServer | grpcmock/src/server.rs:42-56 | construction succeeds iff every method in the registry belongs to the named service; otherwise it fails with the mismatch error; the server keeps the registry and listens on 0.0.0.0 at the chosen port |
| Server.ResponseHeadersLookup | grpcmock/src/server.rs:131-137 | looking up `content-type`, `grpc-status` and `grpc-message` finds `application/grpc`, the status text and the error text, the last only when there is one |
| Server.ResponseHeadersValid | grpcmock/src/server.rs:131-138 | when the status and error texts are valid header values, every header the response gets is valid |
| Server.GrpcResponse | grpcmock/src/server.rs:130-139 | the response has HTTP status 200 and content type `application/grpc`; `grpc-status` holds the code's number and reads back as the code; `grpc-message` is present exactly when there is an error text and holds it; the body is unchanged; there are no other headers (two, or three with a message); every header value is valid |
| Server.Answer | grpcmock/src/server.rs:101-117 | for a method with no entry or no matching mock, the answer is `NotFound` with an empty body and no message; otherwise it is the first matching mock's status, body and error text; `grpc-status` is the code's canonical decimal text in both cases; always HTTP 200 with content type `application/grpc` and no headers beyond the two or three `grpc_response` writes, so the mock's own response headers are not sent; only the answering mock's error text must be a valid header value |
| Server.ErrorsAreSendable | grpcmock/src/server.rs:104-117 | a registry whose error texts are all valid header values can answer any request without the header panic |
| Server.Dispatch | grpcmock/src/server.rs:96-117 | for the method the path parses to: no entry or no matching mock gives `NotFound`, an empty body and no message; otherwise the first matching mock's status, body and error text; `grpc-status` is the code's canonical decimal text; content type `application/grpc` and no headers beyond the two or three `grpc_response` writes |
| Server.Handle | grpcmock/src/server.rs:89-121 | the whole body, its frames joined in order, is looked up with `find` for the parsed method; nothing found gives `NotFound`, an empty body and no message, a found mock gives its gRPC code, body and error text; `grpc-status` is the code's canonical decimal text; always HTTP 200 with content type `application/grpc` and no headers beyond the two or three `grpc_response` writes |
| Server.HandleReadsOnlyPathAndBytes | grpcmock/src/server.rs:96-104 | the response depends only on the path and the collected bytes, not on how the body was cut into frames or on the request headers |
| Server.DispatchOkIff | grpcmock/src/server.rs:104-117 | a response reads as `Ok` iff some mock matches and the first match was declared with HTTP 200 |
| Server.ServerAnswersOnlyItsService | grpcmock/src/server.rs:42-47 | a constructed server only finds mocks of its own service |
| Scenarios.WrongIsValid | grpcmock-test/src/hello.rs:71 | `GrpcMethod::new("WrongService", "Hello")` succeeds |
| Scenarios.MismatchText | grpcmock-test/src/hello.rs:79-81 | the mismatch error for `example.Hello` displays as ``invalid: all mocks must be for `example.Hello` service`` |
| Scenarios.WrongServiceRejected | grpcmock-test/src/hello.rs:68-81 | a server for `example.Hello` refuses a registry holding a `WrongService` mock, with the exact text the test expects |
| Scenarios.HelloValid | grpcmock-test/src/hello.rs:12-36 | `example.Hello` / `HelloUnary` is a valid method |
| Scenarios.HelloPrints | grpcmock/src/method.rs:43-45 | that method prints as `/example.Hello/HelloUnary` |
| Scenarios.HelloHasNoSlash | grpcmock/src/method.rs:57-79 | neither part of that method contains a `/` |
| Scenarios.HelloRoundTrip | grpcmock/src/method.rs:57-79 | its printed path parses back to it |
| Scenarios.HelloMocksAreHeaderValues | grpcmock/src/mock.rs:97-101 | a registry of one `Mock::new` mock has no error text to send |
| Scenarios.HelloUnaryHit | grpcmock/src/server.rs:104-109 | an illustration, not a test's expectation: for `/example.Hello/HelloUnary`, a `Mock::new` mock answers its own framed request with `Ok`, the framed response and no message |
| Scenarios.HelloUnaryMiss | grpcmock/src/server.rs:110-116 | in the same illustration, any other request gets `NotFound`, an empty body and no message |
| Scenarios.GenerateValid | grpcmock-test/src/tgis.rs:113 | `tgis.GenerationService` / `Generate` is a valid method |
| Scenarios.GenerateHasNoSlash | grpcmock/src/method.rs:57-79 | neither part of that method contains a `/` |
| Scenarios.GenerateRoundTrip | grpcmock/src/method.rs:57-79 | its printed path parses back to it |
| Scenarios.GenerateIsOk | grpcmock-test/src/tgis.rs:59-107 | the generation test's `Mock::new` registry answers its own framed request with `Ok`, the framed response and no message, as the test's `is_ok` assertion needs |
| Scenarios.ErrorMocksContents | grpcmock-test/src/tgis.rs:111-145 | the test's registry holds, for that method only, the 400 mock and then the 404 mock, with their bodies and texts |
| Scenarios.ErrorTextsAreHeaderValues | grpcmock-test/src/tgis.rs:126-143 | both error texts are valid header values |
| Scenarios.ErrorMocksFirstHit | grpcmock-test/src/tgis.rs:153-160 | the first request matches the first mock |
| Scenarios.ErrorMocksSecondHit | grpcmock-test/src/tgis.rs:166-173 | when the two messages differ, the second request first matches the second mock |
| Scenarios.EmptyTextIsInternal | grpcmock-test/src/tgis.rs:153-164 | the first request reads as `Internal` with message `text cannot be empty` |
| Scenarios.UnknownModelIsNotFound | grpcmock-test/src/tgis.rs:166-176 | the second request reads as `NotFound` with message `model not found` |
| Scenarios.ErrorMocksMiss | grpcmock-test/src/tgis.rs:111-145 | a third, different message matches neither mock |
| Scenarios.UnmatchedGenerateIsNotFound | grpcmock-test/src/tgis.rs:111-145 | an unmatched request reads as `NotFound` with no message |
| Scenarios.StatusNumbers | grpcmock/src/server.rs:134 | `Ok`, `Unknown`, `NotFound`, `PermissionDenied`, `Unimplemented`, `Internal`, `Unavailable` and `Unauthenticated` go out as 0, 2, 5, 7, 12, 13, 14 and 16 |

## Left out

- Method.IsUpper: `char::is_uppercase` is modelled for ASCII `A`–`Z` only. Non-ASCII uppercase letters, such as `É`, are treated as not uppercase, because Unicode case tables are outside the model.
- Server.GrpcResponse: requires its error text, when there is one, to be a valid header value. `builder.body(...).unwrap()` panics on an invalid one, and the model does not include the panic. The only input that reaches it is a request whose first matching mock carries an error text that is not a valid header value; a miss sends no text. `Server.Answer`, `Server.Dispatch` and `Server.Handle` therefore require `Server.Sendable`, which asks this of the answering mock alone.
- Server.ReadMessage: reads `grpc-message` as the raw header value. The crate sends the error text as it is, while a tonic client percent-decodes the header, so a text holding `%` followed by two hex digits reaches such a client changed; that decoding is not modelled.
- Server.Dispatch: requires the request path to parse. `handle` calls `unwrap` on the parse, and the model does not include the resulting panic. The test outcomes in `Scenarios` are stated on `Server.Answer` for the method the path names; `HelloRoundTrip` and `GenerateRoundTrip` connect the printed paths to those methods.
- The capacity reservation and `unsafe advance_mut` in `to_bytes` are left out: only the bytes they produce are modelled (`Framing.Frame`).
- Protobuf encoding and `serde_json` decoding are left out. The `Encoder` parameter stands for them, and the model says nothing about the encoding's own contents.
- YAML decoding and file opening in `MockFile::read` are left out, along with the `YamlError`/`IoError` variants. `Mocks.ReadMocks` starts from the decoded document.
- `find_available_port` and `port_is_available` are left out: they use randomness and the operating system's sockets. The port is a parameter in the `40000..60000` range the function draws from.
- `MockServer::_start`, the connect-retry loop and its timing constants, `Inner` and the spawned task are left out. They are I/O and concurrency.
- The async collection of the request body is left out. `Handle` receives the body's data frames as a list and concatenates them.
- `MockBody::to_boxed` and the `From` conversions are left out. A response body is kept as a `MockBody` value, and the wire form of a stream is one frame per chunk, in order.
- Request and response `HeaderMap`s are kept as header lists. They are never consulted by matching or sent in responses, and the model states that: matching reads only request bodies (`Mocks.FirstMatchOnlyReadsBodies`), the response does not depend on the request headers (`Server.HandleReadsOnlyPathAndBytes`), and a response carries only the two or three headers `grpc_response` writes (`Server.GrpcResponse`, `Server.Answer`, `Server.Dispatch`, `Server.Handle`).
- `MockSet::new`, `with_mocks`, `FromIterator` and `Deref` are left out. A registry is a Dafny map, built with `map[]` and `Mocks.Insert`.
- `Mock::unary`, called by two tests (`grpcmock-test/src/hello.rs` and `grpcmock-test/src/health.rs`), is not part of this model.
- The `generate_server!` macro in `codegen.rs` is left out. It is code generation around `MockServer`.

=== FILE: bytes.dfy ===
/** Bytes and byte strings, and the concatenation of a list of byte strings
    (`[Bytes]::concat`, and `flatten().collect()` over a list of `Bytes`). */
module Bytes {

  type byte = b: int | 0 <= b < 256

  function Concat(chunks: seq<seq<byte>>): seq<byte>
  {
    if |chunks| == 0 then [] else chunks[0] + Concat(chunks[1..])
  }

  /** Concatenation distributes over appending lists of chunks. */
  lemma {:induction false} ConcatAppend(a: seq<seq<byte>>, b: seq<seq<byte>>)
    ensures Concat(a + b) == Concat(a) + Concat(b)
  {
    if |a| == 0 {
      assert a + b == b;
    } else {
      assert (a + b)[1..] == a[1..] + b;
      ConcatAppend(a[1..], b);
    }
  }

  /** Splitting one chunk in two, anywhere in the list, does not change the
      concatenation: chunk boundaries carry no information. */
  lemma SplitChunk(pre: seq<seq<byte>>, x: seq<byte>, y: seq<byte>, post: seq<seq<byte>>)
    ensures Concat(pre + [x, y] + post) == Concat(pre + [x + y] + post)
  {
    ConcatAppend(pre + [x, y], post);
    ConcatAppend(pre, [x, y]);
    ConcatAppend(pre + [x + y], post);
    ConcatAppend(pre, [x + y]);
    assert Concat([x, y]) == x + Concat([y]);
    assert Concat([y]) == y + Concat([]);
    assert Concat([x + y]) == (x + y) + Concat([]);
  }
}

=== FILE: errors.dfy ===
/** The crate's error type (grpcmock/src/lib.rs). Only the variants the
    modelled core can produce are kept: `Invalid` for naming and registry
    violations, `JsonError` for a JSON body that does not decode. */
module Errors {

  datatype Error = Invalid(message: string) | JsonError(message: string)

  /** The `Display` text `thiserror` derives from the `#[error(...)]` formats. */
  function Display(e: Error): (s: string)
    ensures e.Invalid? ==> s == "invalid: " + e.message
    ensures e.JsonError? ==> s == "json error: " + e.message
  {
    match e
    case Invalid(m) => "invalid: " + m
    case JsonError(m) => "json error: " + m
  }
}

=== FILE: framing.dfy ===
/** The gRPC Length-Prefixed-Message envelope written by `MessageExt::to_bytes`
    (grpcmock/src/utils.rs, module `prost`): a Compressed-Flag byte of 0, the
    Message-Length as a 4-byte big-endian unsigned integer, then the message,
    as laid out in the "Requests" section of the gRPC over HTTP/2 protocol
    description. The crate only writes frames; the reader defined here is the
    independent description the writer is checked against. */
module Framing {

  import opened Wrappers
  import opened Bytes

  const TwoTo32: nat := 0x1_0000_0000

  /** Reads four bytes as a big-endian unsigned integer. */
  function FromBigEndian32(bs: seq<byte>): (n: nat)
    requires |bs| == 4
    ensures n < TwoTo32
  {
    ((bs[0] as int * 0x100 + bs[1]) * 0x100 + bs[2]) * 0x100 + bs[3]
  }

  /** `BufMut::put_u32`: four bytes, most significant first. */
  function BigEndian32(n: nat): (bs: seq<byte>)
    requires n < TwoTo32
    ensures |bs| == 4
    ensures FromBigEndian32(bs) == n
  {
    var n1 := n / 0x100;
    var n2 := n1 / 0x100;
    [n2 / 0x100, n2 % 0x100, n1 % 0x100, n % 0x100]
  }

  /** Four bytes are the big-endian encoding of the number they read as. */
  lemma BigEndian32OfFromBigEndian32(bs: seq<byte>)
    requires |bs| == 4
    ensures BigEndian32(FromBigEndian32(bs)) == bs
  {
    var n := FromBigEndian32(bs);
    var n2: int := bs[0] as int * 0x100 + bs[1];
    var n1: int := n2 * 0x100 + bs[2];
    assert n == n1 * 0x100 + bs[3] as int;
    assert n / 0x100 == n1 && n % 0x100 == bs[3];
    assert n1 / 0x100 == n2 && n1 % 0x100 == bs[2];
    assert n2 / 0x100 == bs[0] && n2 % 0x100 == bs[1];
  }

  /** `to_bytes` around an already encoded message. The length is cast with
      `len as u32`, so a message of 2^32 bytes or more gets a header holding
      its length modulo 2^32. */
  function Frame(payload: seq<byte>): (f: seq<byte>)
    ensures |f| == 5 + |payload|
    ensures f[0] == 0
    ensures FromBigEndian32(f[1..5]) == |payload| % TwoTo32
    ensures f[5..] == payload
  {
    [0] + BigEndian32(|payload| % TwoTo32) + payload
  }

  /** Distinct messages have distinct frames. */
  lemma FrameInjective(p: seq<byte>, q: seq<byte>)
    ensures Frame(p) == Frame(q) <==> p == q
  {
    if Frame(p) == Frame(q) {
      assert p == Frame(p)[5..] == Frame(q)[5..] == q;
    }
  }

  /** Reads one length-prefixed message off the front of `bs`, returning it and
      the bytes after it; `None` when the flag is not 0 or bytes are missing. */
  function ParseFrame(bs: seq<byte>): (r: Option<(seq<byte>, seq<byte>)>)
    ensures r.Some? ==> 5 + |r.value.0| + |r.value.1| == |bs|
  {
    if |bs| < 5 || bs[0] != 0 then None
    else
      var len := FromBigEndian32(bs[1..5]);
      if |bs| - 5 < len then None else Some((bs[5..5 + len], bs[5 + len..]))
  }

  /** Reading a frame back yields its message and leaves what followed it,
      exactly when the message length fits in the 32-bit length field. */
  lemma ParseFrameOfFrame(p: seq<byte>, rest: seq<byte>)
    ensures ParseFrame(Frame(p) + rest) == Some((p, rest)) <==> |p| < TwoTo32
  {
    var bs := Frame(p) + rest;
    assert bs[1..5] == Frame(p)[1..5];
    if |p| < TwoTo32 {
      assert bs[5..5 + |p|] == p;
      assert bs[5 + |p|..] == rest;
    } else {
      assert FromBigEndian32(bs[1..5]) != |p|;
    }
  }

  /** Whatever the reader accepts is a frame followed by the rest: the reader
      and `Frame` describe the same format. */
  lemma FrameOfParseFrame(bs: seq<byte>)
    requires ParseFrame(bs).Some?
    ensures var (p, rest) := ParseFrame(bs).value;
      |p| < TwoTo32 && Frame(p) + rest == bs
  {
    var (p, rest) := ParseFrame(bs).value;
    BigEndian32OfFromBigEndian32(bs[1..5]);
    assert |p| % TwoTo32 == |p|;
    assert bs == [bs[0]] + bs[1..5] + p + rest;
  }

  /** The frames of a list of messages, one after the other (how a streamed
      body travels). */
  function EncodeFrames(payloads: seq<seq<byte>>): seq<byte>
  {
    if |payloads| == 0 then [] else Frame(payloads[0]) + EncodeFrames(payloads[1..])
  }

  /** Reads consecutive frames until the input is used up. */
  function ParseFrames(bs: seq<byte>): Option<seq<seq<byte>>>
    decreases |bs|
  {
    if |bs| == 0 then Some([])
    else
      match ParseFrame(bs)
      case None => None
      case Some((p, rest)) =>
        match ParseFrames(rest)
        case None => None
        case Some(ps) => Some([p] + ps)
  }

  /** A sequence of frames reads back as the messages it was built from. */
  lemma {:induction false} ParseFramesOfEncodeFrames(payloads: seq<seq<byte>>)
    requires forall i :: 0 <= i < |payloads| ==> |payloads[i]| < TwoTo32
    ensures ParseFrames(EncodeFrames(payloads)) == Some(payloads)
  {
    if |payloads| > 0 {
      var rest := EncodeFrames(payloads[1..]);
      ParseFrameOfFrame(payloads[0], rest);
      ParseFramesOfEncodeFrames(payloads[1..]);
      assert [payloads[0]] + payloads[1..] == payloads;
    }
  }

  /** `EncodeFrames` is the concatenation of the individual frames. */
  lemma {:induction false} EncodeFramesIsConcat(payloads: seq<seq<byte>>, frames: seq<seq<byte>>)
    requires |frames| == |payloads|
    requires forall i :: 0 <= i < |payloads| ==> frames[i] == Frame(payloads[i])
    ensures EncodeFrames(payloads) == Concat(frames)
  {
    if |payloads| > 0 {
      EncodeFramesIsConcat(payloads[1..], frames[1..]);
    }
  }
}

=== FILE: headers.dfy ===
/** HTTP header lists as the response builder fills them: names in the order
    they were appended, values as text. Also the decimal rendering of an
    integer header value (`HeaderValue::from(i32)`) and the set of strings the
    `http` crate accepts as a header value. */
module Headers {

  import opened Wrappers

  datatype Header = Header(name: string, value: string)

  /** `HeaderMap::get`: the value of the first header with that name. */
  function Lookup(headers: seq<Header>, name: string): (r: Option<string>)
    ensures r.None? <==> forall i :: 0 <= i < |headers| ==> headers[i].name != name
    ensures r.Some? ==>
      exists i :: 0 <= i < |headers| && headers[i] == Header(name, r.value) &&
        forall j :: 0 <= j < i ==> headers[j].name != name
  {
    if |headers| == 0 then None
    else if headers[0].name == name then Some(headers[0].value)
    else Lookup(headers[1..], name)
  }

  /** `HeaderValue::from_str` accepts visible ASCII, tab and every non-ASCII
      character (whose UTF-8 bytes are all 0x80 or above); it refuses the
      other control characters and DEL. */
  predicate ValidValue(s: string)
  {
    forall i :: 0 <= i < |s| ==> s[i] == '\t' || (' ' <= s[i] && s[i] as int != 0x7f)
  }

  function DigitChar(d: nat): (c: char)
    requires d < 10
    ensures '0' <= c <= '9'
  {
    "0123456789"[d]
  }

  function DigitValue(c: char): (d: nat)
    requires '0' <= c <= '9'
    ensures d < 10 && DigitChar(d) == c
  {
    (c - '0') as nat
  }

  /** The decimal rendering of a non-negative integer, without leading zeros. */
  function Decimal(n: nat): (s: string)
    ensures |s| > 0
    ensures forall i :: 0 <= i < |s| ==> '0' <= s[i] <= '9'
    ensures |s| > 1 ==> s[0] != '0'
  {
    if n < 10 then [DigitChar(n)] else Decimal(n / 10) + [DigitChar(n % 10)]
  }

  /** Reads a non-empty string of decimal digits. */
  function ParseDecimal(s: string): Option<nat>
  {
    if |s| == 0 then None
    else if !('0' <= s[|s| - 1] <= '9') then None
    else if |s| == 1 then Some(DigitValue(s[0]))
    else
      match ParseDecimal(s[..|s| - 1])
      case None => None
      case Some(m) => Some(m * 10 + DigitValue(s[|s| - 1]))
  }

  /** Reading a rendered number gives the number back. */
  lemma {:induction false} ParseDecimalOfDecimal(n: nat)
    ensures ParseDecimal(Decimal(n)) == Some(n)
  {
    if n >= 10 {
      var s := Decimal(n);
      assert s == Decimal(n / 10) + [DigitChar(n % 10)];
      assert n == (n / 10) * 10 + n % 10;
      assert s[..|s| - 1] == Decimal(n / 10);
      assert s[|s| - 1] == DigitChar(n % 10);
      ParseDecimalOfDecimal(n / 10);
      assert DigitValue(DigitChar(n % 10)) == n % 10;
    }
  }

  /** Rendered numbers are valid header values. */
  lemma DecimalIsValidValue(n: nat)
    ensures ValidValue(Decimal(n))
  {
  }
}

=== FILE: method.dfy ===
/** Method addressing (grpcmock/src/method.rs): a gRPC method is a service and
    a method name, written as the request path `/<service>/<name>` (the
    `:path` form `/` Service-Name `/` method-name of the "Requests" section of
    the gRPC over HTTP/2 protocol description). */
module Method {

  import opened Wrappers
  import opened Errors

  /** `GrpcMethod`. Its fields double as the `service()` and `name()`
      accessors. */
  datatype GrpcMethod = GrpcMethod(service: string, name: string)

  const ServiceMessage := "service should start with uppercase"
  const NameMessage := "name should start with uppercase"
  const PathMessage := "path should be formatted `<service>/<name>`"

  /** `char::is_uppercase`, restricted to the ASCII letters. */
  predicate IsUpper(c: char)
  {
    'A' <= c <= 'Z'
  }

  /** The check `new` applies to a string: it fails only when a first
      character exists and is not uppercase. */
  predicate StartsUpper(s: string)
  {
    |s| == 0 || IsUpper(s[0])
  }

  /** The parts joined with `sep` between them (the inverse of `Split`). */
  function Join(parts: seq<string>, sep: char): string
    requires |parts| > 0
  {
    if |parts| == 1 then parts[0] else Join(parts[..|parts| - 1], sep) + [sep] + parts[|parts| - 1]
  }

  lemma {:induction false} JoinCons(p: string, rest: seq<string>, sep: char)
    requires |rest| > 0
    ensures Join([p] + rest, sep) == p + [sep] + Join(rest, sep)
    decreases |rest|
  {
    if |rest| > 1 {
      assert ([p] + rest)[..|rest|] == [p] + rest[..|rest| - 1];
      JoinCons(p, rest[..|rest| - 1], sep);
    }
  }

  /** `str::split` on one character: the maximal separator-free pieces, in
      order, including empty pieces before, between and after separators. */
  function Split(s: string, sep: char): (parts: seq<string>)
    ensures |parts| > 0
    decreases |s|
  {
    if |s| == 0 then [""]
    else
      var rest := Split(s[1..], sep);
      if s[0] == sep then [""] + rest else [[s[0]] + rest[0]] + rest[1..]
  }

  /** There is one more piece than there are separators. */
  lemma {:induction false} SplitCount(s: string, sep: char)
    ensures |Split(s, sep)| == multiset(s)[sep] + 1
    decreases |s|
  {
    if |s| > 0 {
      SplitCount(s[1..], sep);
      assert s == [s[0]] + s[1..];
      assert multiset(s) == multiset{s[0]} + multiset(s[1..]);
    }
  }

  /** No piece holds a separator. */
  lemma {:induction false} SplitPiecesFree(s: string, sep: char)
    ensures forall k :: 0 <= k < |Split(s, sep)| ==> sep !in Split(s, sep)[k]
    decreases |s|
  {
    if |s| > 0 {
      SplitPiecesFree(s[1..], sep);
      var rest := Split(s[1..], sep);
      var parts := Split(s, sep);
      if s[0] != sep {
        assert parts[0] == [s[0]] + rest[0];
        forall k | 0 <= k < |parts|
          ensures sep !in parts[k]
        {
          if k > 0 {
            assert parts[k] == rest[k];
          }
        }
      }
    }
  }

  /** Joining the pieces restores the string. */
  lemma {:induction false} SplitJoin(s: string, sep: char)
    ensures Join(Split(s, sep), sep) == s
    decreases |s|
  {
    if |s| > 0 {
      var rest := Split(s[1..], sep);
      SplitJoin(s[1..], sep);
      assert s == [s[0]] + s[1..];
      if s[0] == sep {
        JoinCons("", rest, sep);
      } else if |rest| == 1 {
        assert Split(s, sep) == [[s[0]] + rest[0]];
      } else {
        assert Split(s, sep) == [[s[0]] + rest[0]] + rest[1..];
        JoinCons([s[0]] + rest[0], rest[1..], sep);
        JoinCons(rest[0], rest[1..], sep);
        assert rest == [rest[0]] + rest[1..];
      }
    }
  }

  /** A string with exactly one separator splits into the text before it and
      the text after it. */
  lemma SplitOne(t: string, sep: char)
    requires multiset(t)[sep] == 1
    ensures var parts := Split(t, sep);
      && |parts| == 2
      && t == parts[0] + [sep] + parts[1]
      && sep !in parts[0] && sep !in parts[1]
      && (forall i :: 0 <= i < |t| && t[i] == sep ==> i == |parts[0]|)
  {
    SplitCount(t, sep);
    SplitPiecesFree(t, sep);
    SplitJoin(t, sep);
    var parts := Split(t, sep);
    assert Join(parts, sep) == Join(parts[..1], sep) + [sep] + parts[1];
    assert parts[..1] == [parts[0]];
  }

  /** The piece after the last separator (`split('.').last()`). */
  function LastSegment(s: string): string
  {
    var parts := Split(s, '.');
    parts[|parts| - 1]
  }

  /** The naming rule for services, stated without splitting: the character
      that begins the last dot-separated segment, if there is one, is
      uppercase. */
  predicate ServiceWellCased(s: string)
  {
    forall i :: 0 <= i < |s| && BeginsLastSegment(s, i) ==> IsUpper(s[i])
  }

  /** Position `i` follows the last dot, or there is no dot at all. */
  predicate BeginsLastSegment(s: string, i: nat)
    requires i <= |s|
  {
    (i == 0 || s[i - 1] == '.') && '.' !in s[i..]
  }

  /** `new` validates exactly the naming rule. */
  lemma LastSegmentCasing(s: string)
    ensures StartsUpper(LastSegment(s)) <==> ServiceWellCased(s)
  {
    SplitPiecesFree(s, '.');
    SplitJoin(s, '.');
    var parts := Split(s, '.');
    var n := |parts|;
    var last := parts[n - 1];
    var k := |s| - |last|;
    assert '.' !in last;
    assert s[k..] == last && (k == 0 || s[k - 1] == '.') by {
      if n > 1 {
        assert s == Join(parts[..n - 1], '.') + ['.'] + last;
      }
    }
    if !StartsUpper(last) {
      assert 0 <= k < |s| && BeginsLastSegment(s, k) && !IsUpper(s[k]);
    }
  }

  /** A service without a dot is a single segment. */
  lemma UndottedServiceCasing(s: string)
    requires '.' !in s
    ensures ServiceWellCased(s) <==> StartsUpper(s)
  {
    if |s| > 0 && !IsUpper(s[0]) {
      assert BeginsLastSegment(s, 0);
    }
  }

  /** Only the segment after the last dot is checked. */
  lemma DottedServiceCasing(pkg: string, last: string)
    requires '.' !in last
    ensures ServiceWellCased(pkg + "." + last) <==> StartsUpper(last)
  {
    var s := pkg + "." + last;
    var k := |pkg| + 1;
    assert s[k..] == last;
    if !StartsUpper(last) {
      assert 0 <= k < |s| && BeginsLastSegment(s, k) && !IsUpper(s[k]);
    }
  }

  /** `GrpcMethod::new`: checks the service first, then the name, and stores
      both unchanged. */
  function New(service: string, name: string): (r: Result<GrpcMethod, Error>)
    ensures r.Success? <==> ServiceWellCased(service) && StartsUpper(name)
    ensures r.Success? ==> r.value.service == service && r.value.name == name
    ensures !ServiceWellCased(service) ==> r == Failure(Invalid(ServiceMessage))
    ensures ServiceWellCased(service) && !StartsUpper(name) ==> r == Failure(Invalid(NameMessage))
  {
    LastSegmentCasing(service);
    if !StartsUpper(LastSegment(service)) then Failure(Invalid(ServiceMessage))
    else if !StartsUpper(name) then Failure(Invalid(NameMessage))
    else Success(GrpcMethod(service, name))
  }

  /** A method `new` accepts. */
  predicate Valid(m: GrpcMethod)
  {
    New(m.service, m.name) == Success(m)
  }

  /** What `new` returns passes `new` again unchanged. */
  lemma NewIsValid(service: string, name: string)
    requires New(service, name).Success?
    ensures Valid(New(service, name).value)
  {
  }

  /** `GrpcMethod::path`. */
  function Path(m: GrpcMethod): string
  {
    "/" + m.service + "/" + m.name
  }

  /** The `Display` text. */
  function ToString(m: GrpcMethod): string
  {
    Path(m)
  }

  /** The printed form is a `/`, the service, a `/` and the name, with
      nothing else. */
  lemma ToStringLayout(m: GrpcMethod)
    ensures var s := ToString(m);
      && |s| == |m.service| + |m.name| + 2
      && s[0] == '/' && s[|m.service| + 1] == '/'
      && s[1..|m.service| + 1] == m.service && s[|m.service| + 2..] == m.name
  {
  }

  /** One leading `/` removed, if present. */
  function StripSlash(s: string): string
  {
    if |s| > 0 && s[0] == '/' then s[1..] else s
  }

  /** `FromStr::from_str`: after removing at most one leading `/`, the rest
      must contain exactly one `/`; the pieces around it go to `new`, whose
      naming errors come back unchanged. Empty pieces are not refused here. */
  function FromStr(s: string): (r: Result<GrpcMethod, Error>)
    ensures multiset(StripSlash(s))['/'] != 1 ==> r == Failure(Invalid(PathMessage))
    ensures forall i :: 0 <= i < |StripSlash(s)| && StripSlash(s)[i] == '/' && multiset(StripSlash(s))['/'] == 1 ==>
      r == New(StripSlash(s)[..i], StripSlash(s)[i + 1..])
  {
    var t := StripSlash(s);
    SplitCount(t, '/');
    var parts := Split(t, '/');
    if |parts| != 2 then Failure(Invalid(PathMessage))
    else
      SplitOne(t, '/');
      assert t[..|parts[0]|] == parts[0] && t[|parts[0]| + 1..] == parts[1];
      New(parts[0], parts[1])
  }

  /** A separator between two separator-free strings occurs once. */
  lemma CountBetween(a: string, sep: char, b: string)
    requires sep !in a && sep !in b
    ensures multiset(a + [sep] + b)[sep] == 1
  {
    assert multiset(a + [sep] + b) == multiset(a) + multiset{sep} + multiset(b);
  }

  /** Printing a valid method whose parts contain no `/` and parsing the text
      gives the method back. */
  lemma RoundTrip(m: GrpcMethod)
    requires Valid(m)
    requires '/' !in m.service && '/' !in m.name
    ensures FromStr(ToString(m)) == Success(m)
  {
    var t := StripSlash(ToString(m));
    assert t == m.service + ['/'] + m.name;
    CountBetween(m.service, '/', m.name);
    var i := |m.service|;
    assert t[i] == '/';
    assert t[..i] == m.service && t[i + 1..] == m.name;
  }

  /** What parses is the text, without its leading `/`, of a valid method
      with no `/` in its parts. */
  lemma ParsedPieces(s: string)
    ensures FromStr(s).Success? ==>
      var m := FromStr(s).value;
      && Valid(m) && '/' !in m.service && '/' !in m.name
      && StripSlash(s) == m.service + "/" + m.name
  {
    if FromStr(s).Success? {
      var m := FromStr(s).value;
      var t := StripSlash(s);
      var i := OnlySeparator(t, '/');
      var service, name := t[..i], t[i + 1..];
      assert New(service, name) == Success(m);
      NewIsValid(service, name);
      assert t == service + "/" + name;
    }
  }

  /** Conversely, whatever parses is a valid method without `/` in its parts,
      and the text was its path, with or without the leading `/`. */
  lemma ParsedIsPrinted(s: string)
    ensures FromStr(s).Success? ==>
      var m := FromStr(s).value;
      && Valid(m) && '/' !in m.service && '/' !in m.name
      && (s == ToString(m) || "/" + s == ToString(m))
  {
    ParsedPieces(s);
    if FromStr(s).Success? {
      var m := FromStr(s).value;
      var t := StripSlash(s);
      assert t == m.service + "/" + m.name;
      assert ToString(m) == "/" + t;
      if |s| > 0 && s[0] == '/' {
        assert s == "/" + t;
        assert s == ToString(m);
      } else {
        assert s == t;
        assert "/" + s == ToString(m);
      }
    }
  }

  /** The position of the only separator in a string that has exactly one. */
  lemma OnlySeparator(t: string, sep: char) returns (i: nat)
    requires multiset(t)[sep] == 1
    ensures i < |t| && t[i] == sep
    ensures sep !in t[..i] && sep !in t[i + 1..]
  {
    SplitOne(t, sep);
    var parts := Split(t, sep);
    i := |parts[0]|;
    assert t[..i] == parts[0] && t[i + 1..] == parts[1];
  }

  /** The round trip needs its `/` precondition: `new` accepts a service
      containing `/`, and its path no longer parses. */
  lemma SlashBreaksRoundTrip()
    ensures Valid(GrpcMethod("A/b", "C"))
    ensures FromStr(ToString(GrpcMethod("A/b", "C"))).Failure?
  {
    var service := "A/b";
    assert '.' !in service;
    UndottedServiceCasing(service);
    assert ServiceWellCased(service) && StartsUpper("C");
    var t := StripSlash(ToString(GrpcMethod(service, "C")));
    assert t == service + ['/'] + "C";
    assert service == "A" + ['/'] + "b";
    CountBetween("A", '/', "b");
    assert multiset(t) == multiset(service) + multiset{'/'} + multiset("C");
    assert multiset(t)['/'] == 2;
  }

  /** Empty pieces are accepted: `//` names the method with an empty service
      and an empty name. */
  lemma EmptyPiecesAccepted()
    ensures FromStr("//") == Success(GrpcMethod("", ""))
    ensures FromStr("/").Failure? && FromStr("").Failure?
  {
    assert StripSlash("//") == "/";
    assert StripSlash("/")[..0] == "";
    assert StripSlash("/") == "";
    assert multiset(StripSlash("/"))['/'] == 0;
  }
}

=== FILE: mock.dfy ===
/** Mocks and the mock registry (grpcmock/src/mock.rs): request/response
    pairs keyed by method, matched on the raw request bytes. */
module Mocks {

  import opened Wrappers
  import opened Errors
  import opened Bytes
  import opened Headers
  import opened Method
  import Status
  import Framing

  /** `JsonMockBody`: a body as written in a mock file, one JSON text per
      message. */
  datatype JsonBody = JsonEmpty | JsonFull(text: string) | JsonStream(texts: seq<string>)

  /** `MockBody`: a body as bytes; a stream keeps one entry per message. */
  datatype MockBody = Empty | Full(bytes: seq<byte>) | Stream(chunks: seq<seq<byte>>)

  /** `MockRequest`. Its headers are stored and never consulted. */
  datatype MockRequest = MockRequest(headers: seq<Header>, jsonBody: JsonBody, body: MockBody)

  /** `MockResponse`. Its headers are stored and never sent. */
  datatype MockResponse = MockResponse(
    httpCode: Status.StatusCode,
    headers: seq<Header>,
    jsonBody: JsonBody,
    body: MockBody,
    error: Option<string>)

  /** `Mock`: an expected request and the response to give it. */
  datatype Mock = Mock(request: MockRequest, response: MockResponse)

  /** `MockSet`: for every method, its mocks in insertion order. */
  type MockSet = map<GrpcMethod, seq<Mock>>

  /** Decoding one JSON text into a message and protobuf-encoding it: the
      serde and prost code the crate calls, left abstract. */
  type Encoder = string -> Result<seq<byte>, Error>

  // ---------------------------------------------------------------------
  // Body equality

  /** The bytes a body stands for on the wire: nothing, the bytes, or the
      chunks one after the other. */
  function Payload(b: MockBody): seq<byte>
  {
    match b
    case Empty => []
    case Full(x) => x
    case Stream(cs) => Concat(cs)
  }

  /** `PartialEq<[u8]> for MockBody`, decided case by case. */
  predicate Matches(b: MockBody, bytes: seq<byte>)
    ensures Matches(b, bytes) <==> Payload(b) == bytes
  {
    match b
    case Empty => |bytes| == 0
    case Full(x) => x == bytes
    case Stream(cs) => Concat(cs) == bytes
  }

  /** A stream matches what its concatenation matches, and moving a chunk
      boundary changes nothing. */
  lemma StreamChunkingIrrelevant(pre: seq<seq<byte>>, x: seq<byte>, y: seq<byte>, post: seq<seq<byte>>, bytes: seq<byte>)
    ensures Matches(Stream(pre + [x, y] + post), bytes) <==> Matches(Stream(pre + [x + y] + post), bytes)
    ensures Matches(Stream(pre + [x, y] + post), bytes) <==> Matches(Full(Concat(pre + [x, y] + post)), bytes)
  {
    SplitChunk(pre, x, y, post);
  }

  // ---------------------------------------------------------------------
  // Construction

  /** `MockRequest::new`: no headers, no JSON form. */
  function NewRequest(body: MockBody): MockRequest
  {
    MockRequest([], JsonEmpty, body)
  }

  /** `MockResponse::default()`: status 200, no headers, empty body, no error. */
  const DefaultResponse: MockResponse := MockResponse(200, [], JsonEmpty, Empty, None)

  /** `MockResponse::new`. */
  function NewResponse(body: MockBody): MockResponse
  {
    DefaultResponse.(body := body)
  }

  function RequestWithHeaders(r: MockRequest, headers: seq<Header>): MockRequest
  {
    r.(headers := headers)
  }

  function RequestWithBody(r: MockRequest, body: MockBody): MockRequest
  {
    r.(body := body)
  }

  function ResponseWithHeaders(r: MockResponse, headers: seq<Header>): MockResponse
  {
    r.(headers := headers)
  }

  function ResponseWithBody(r: MockResponse, body: MockBody): MockResponse
  {
    r.(body := body)
  }

  function WithError(r: MockResponse, error: string): MockResponse
  {
    r.(error := Some(error))
  }

  function WithHttpCode(r: MockResponse, code: Status.StatusCode): MockResponse
  {
    r.(httpCode := code)
  }

  /** `MockRequest::new` and `MockResponse::new` start from the defaults and
      set only the body; the `with_headers`/`with_body` builders replace one
      field and keep the others. */
  lemma BodyBuilders(q: MockRequest, r: MockResponse, b: MockBody, h: seq<Header>)
    ensures NewRequest(b).body == b && NewRequest(b).headers == [] && NewRequest(b).jsonBody == JsonEmpty
    ensures NewResponse(b).body == b && NewResponse(b).(body := Empty) == DefaultResponse
    ensures RequestWithBody(q, b).body == b && RequestWithBody(q, b).(body := q.body) == q
    ensures RequestWithHeaders(q, h).headers == h && RequestWithHeaders(q, h).(headers := q.headers) == q
    ensures ResponseWithBody(r, b).body == b && ResponseWithBody(r, b).(body := r.body) == r
    ensures ResponseWithHeaders(r, h).headers == h && ResponseWithHeaders(r, h).(headers := r.headers) == r
  {
  }

  /** `MockResponse::grpc_code`: the gRPC status the declared HTTP status
      stands for. */
  function GrpcCode(r: MockResponse): (c: Status.Code)
    ensures c == Status.Ok <==> r.httpCode == 200
    ensures c == Status.NotFound <==> r.httpCode == 404
  {
    Status.FromHttpPreimages(r.httpCode);
    Status.FromHttp(r.httpCode)
  }

  /** Each builder sets its one field and keeps the rest, so the order in
      which `with_error` and `with_http_code` are applied does not matter,
      and the status code afterwards is what `with_http_code` implies. */
  lemma ResponseBuilders(r: MockResponse, e: string, c: Status.StatusCode)
    ensures WithError(r, e).error == Some(e)
    ensures WithError(r, e).(error := r.error) == r
    ensures WithHttpCode(r, c).httpCode == c
    ensures WithHttpCode(r, c).(httpCode := r.httpCode) == r
    ensures WithError(WithHttpCode(r, c), e) == WithHttpCode(WithError(r, e), c)
    ensures GrpcCode(WithHttpCode(r, c)) == Status.FromHttp(c)
  {
  }

  /** `Mock::new`: both messages are stored framed, as `to_bytes` writes
      them, so the mock matches exactly the framed request and answers with
      status OK. */
  function NewMock(request: seq<byte>, response: seq<byte>): (m: Mock)
    ensures forall bytes :: Matches(m.request.body, bytes) <==> bytes == Framing.Frame(request)
    ensures GrpcCode(m.response) == Status.Ok && m.response.error == None
    ensures Payload(m.response.body) == Framing.Frame(response)
  {
    Mock(NewRequest(Full(Framing.Frame(request))), NewResponse(Full(Framing.Frame(response))))
  }

  // ---------------------------------------------------------------------
  // Bodies from JSON

  /** One JSON text made into a framed message (`from_str(...)?.to_bytes()`). */
  function FramedMessage(encode: Encoder, text: string): (r: Result<seq<byte>, Error>)
    ensures r.Success? <==> encode(text).Success?
    ensures r.Success? ==> r.value == Framing.Frame(encode(text).value)
    ensures r.Failure? ==> r.error == encode(text).error
  {
    match encode(text)
    case Success(p) => Success(Framing.Frame(p))
    case Failure(e) => Failure(e)
  }

  function Framed(encode: Encoder): Encoder
  {
    text => FramedMessage(encode, text)
  }

  /** `MockBody::from_json`. Each message is framed; a stream is kept as a
      stream, or, when `flatten` is set, becomes one body holding all the
      frames in order. The first text that does not decode is the error. */
  function FromJson(json: JsonBody, flatten: bool, encode: Encoder): (r: Result<MockBody, Error>)
    ensures json.JsonEmpty? ==> r == Success(Empty)
    ensures json.JsonFull? ==> (r.Success? <==> encode(json.text).Success?)
    ensures json.JsonFull? && r.Success? ==> r.value == Full(Framing.Frame(encode(json.text).value))
    ensures json.JsonFull? && r.Failure? ==> r.error == encode(json.text).error
    ensures json.JsonStream? ==>
      (r.Success? <==> forall i :: 0 <= i < |json.texts| ==> encode(json.texts[i]).Success?)
    ensures json.JsonStream? && r.Failure? ==>
      exists i :: 0 <= i < |json.texts| && encode(json.texts[i]) == Failure(r.error) &&
        forall j :: 0 <= j < i ==> encode(json.texts[j]).Success?
    ensures json.JsonStream? && r.Success? && !flatten ==>
      r.value.Stream? && |r.value.chunks| == |json.texts| &&
      forall i :: 0 <= i < |json.texts| ==> r.value.chunks[i] == Framing.Frame(encode(json.texts[i]).value)
    ensures json.JsonStream? && r.Success? && flatten ==> r.value.Full?
  {
    match json
    case JsonEmpty => Success(Empty)
    case JsonFull(text) =>
      (match FramedMessage(encode, text)
       case Success(f) => Success(Full(f))
       case Failure(e) => Failure(e))
    case JsonStream(texts) =>
      match Traverse(texts, Framed(encode))
      case Failure(e) =>
        assert forall i :: 0 <= i < |texts| ==> Framed(encode)(texts[i]) == FramedMessage(encode, texts[i]);
        Failure(e)
      case Success(frames) =>
        assert forall i :: 0 <= i < |texts| ==> Framed(encode)(texts[i]) == FramedMessage(encode, texts[i]);
        if flatten then Success(Full(Concat(frames))) else Success(Stream(frames))
  }

  /** Flattening changes only the shape: the flattened body holds the
      concatenation of the streamed frames, so both forms match the same
      request bytes. */
  lemma FlattenKeepsPayload(json: JsonBody, encode: Encoder)
    ensures FromJson(json, true, encode).Success? <==> FromJson(json, false, encode).Success?
    ensures FromJson(json, true, encode).Success? ==>
      Payload(FromJson(json, true, encode).value) == Payload(FromJson(json, false, encode).value)
  {
  }

  /** A flattened stream is the frames of its messages back to back, and
      reading the frames recovers the messages. */
  lemma FlattenedStreamReadsBack(texts: seq<string>, encode: Encoder)
    requires Traverse(texts, encode).Success?
    requires forall i :: 0 <= i < |texts| ==> |Traverse(texts, encode).value[i]| < Framing.TwoTo32
    ensures FromJson(JsonStream(texts), true, encode).Success?
    ensures Payload(FromJson(JsonStream(texts), true, encode).value) == Framing.EncodeFrames(Traverse(texts, encode).value)
    ensures Framing.ParseFrames(Payload(FromJson(JsonStream(texts), true, encode).value)) == Some(Traverse(texts, encode).value)
  {
    var payloads := Traverse(texts, encode).value;
    var body := FromJson(JsonStream(texts), false, encode).value;
    Framing.EncodeFramesIsConcat(payloads, body.chunks);
    Framing.ParseFramesOfEncodeFrames(payloads);
  }

  /** `Mock::encode_body`: the request body is built flattened, the response
      body is not; nothing else changes. The request is encoded first, so
      its error wins. */
  function EncodeBody(m: Mock, encodeRequest: Encoder, encodeResponse: Encoder): (r: Result<Mock, Error>)
    ensures r.Success? <==>
      FromJson(m.request.jsonBody, true, encodeRequest).Success? &&
      FromJson(m.response.jsonBody, false, encodeResponse).Success?
    ensures FromJson(m.request.jsonBody, true, encodeRequest).Failure? ==>
      r == Failure(FromJson(m.request.jsonBody, true, encodeRequest).error)
    ensures r.Success? ==>
      && r.value.request == m.request.(body := FromJson(m.request.jsonBody, true, encodeRequest).value)
      && r.value.response == m.response.(body := FromJson(m.response.jsonBody, false, encodeResponse).value)
    ensures r.Success? ==> !r.value.request.body.Stream?
    ensures r.Success? ==> (r.value.response.body.Stream? <==> m.response.jsonBody.JsonStream?)
  {
    var requestBody :- FromJson(m.request.jsonBody, true, encodeRequest);
    var responseBody :- FromJson(m.response.jsonBody, false, encodeResponse);
    Success(Mock(m.request.(body := requestBody), m.response.(body := responseBody)))
  }

  function EncodeWith(encodeRequest: Encoder, encodeResponse: Encoder): Mock -> Result<Mock, Error>
  {
    m => EncodeBody(m, encodeRequest, encodeResponse)
  }

  /** `MockFile::read` after the YAML document has been decoded: the method
      is built with `GrpcMethod::new`, then every mock's bodies are encoded,
      stopping at the first error. */
  function ReadMocks(service: string, methodName: string, mocks: seq<Mock>, encodeRequest: Encoder, encodeResponse: Encoder)
    : (r: Result<(GrpcMethod, seq<Mock>), Error>)
    ensures New(service, methodName).Failure? ==> r == Failure(New(service, methodName).error)
    ensures r.Success? ==>
      && New(service, methodName) == Success(r.value.0)
      && |r.value.1| == |mocks|
      && forall i :: 0 <= i < |mocks| ==> EncodeBody(mocks[i], encodeRequest, encodeResponse) == Success(r.value.1[i])
    ensures New(service, methodName).Success? && r.Failure? ==>
      exists i :: 0 <= i < |mocks|
        && EncodeBody(mocks[i], encodeRequest, encodeResponse) == Failure(r.error)
        && forall j :: 0 <= j < i ==> EncodeBody(mocks[j], encodeRequest, encodeResponse).Success?
  {
    var m :- New(service, methodName);
    assert forall i :: 0 <= i < |mocks| ==>
      EncodeWith(encodeRequest, encodeResponse)(mocks[i]) == EncodeBody(mocks[i], encodeRequest, encodeResponse);
    var encoded :- Traverse(mocks, EncodeWith(encodeRequest, encodeResponse));
    Success((m, encoded))
  }

  // ---------------------------------------------------------------------
  // The registry

  /** `MockSet::insert`: appends to the method's list, creating it if absent. */
  function Insert(s: MockSet, m: GrpcMethod, x: Mock): (r: MockSet)
    ensures r.Keys == s.Keys + {m}
    ensures r[m] == (if m in s then s[m] else []) + [x]
    ensures forall k :: k in s && k != m ==> r[k] == s[k]
  {
    if m in s then s[m := s[m] + [x]] else s[m := [x]]
  }

  /** The merge step of `insert_from_file`: the loaded list goes after the
      existing mocks (an empty list still creates the entry). */
  function Append(s: MockSet, m: GrpcMethod, xs: seq<Mock>): (r: MockSet)
    ensures r.Keys == s.Keys + {m}
    ensures r[m] == (if m in s then s[m] else []) + xs
    ensures forall k :: k in s && k != m ==> r[k] == s[k]
  {
    if m in s then s[m := s[m] + xs] else s[m := xs]
  }

  /** Inserting the mocks one by one, in order. */
  function InsertEach(s: MockSet, m: GrpcMethod, xs: seq<Mock>): MockSet
    decreases |xs|
  {
    if |xs| == 0 then s else InsertEach(Insert(s, m, xs[0]), m, xs[1..])
  }

  /** Merging a loaded list is the same as inserting its mocks one by one,
      except that merging an empty list still creates the entry. */
  lemma {:induction false} AppendIsInsertEach(s: MockSet, m: GrpcMethod, xs: seq<Mock>)
    requires m in s || |xs| > 0
    ensures Append(s, m, xs) == InsertEach(s, m, xs)
    decreases |xs|
  {
    if |xs| > 0 {
      var s' := Insert(s, m, xs[0]);
      AppendIsInsertEach(s', m, xs[1..]);
      var prior := if m in s then s[m] else [];
      assert s'[m] + xs[1..] == prior + xs by {
        assert s'[m] == prior + [xs[0]];
        assert xs == [xs[0]] + xs[1..];
      }
      var a, b := Append(s', m, xs[1..]), Append(s, m, xs);
      assert a.Keys == b.Keys;
      assert forall k :: k in a ==> a[k] == b[k];
      assert a == b;
    } else {
      assert s[m] + xs == s[m];
      var a := Append(s, m, xs);
      assert a.Keys == s.Keys;
      assert forall k :: k in a ==> a[k] == s[k];
    }
  }

  /** `insert_from_file` after reading the file: a read error is returned and
      nothing is added; otherwise the loaded mocks go after the existing ones
      for their method, whose earlier mocks keep priority. */
  function InsertFromFile(s: MockSet, service: string, methodName: string, mocks: seq<Mock>, encodeRequest: Encoder, encodeResponse: Encoder)
    : (r: Result<MockSet, Error>)
    ensures r.Success? <==> ReadMocks(service, methodName, mocks, encodeRequest, encodeResponse).Success?
    ensures r.Failure? ==> r.error == ReadMocks(service, methodName, mocks, encodeRequest, encodeResponse).error
    ensures r.Success? ==>
      var m := New(service, methodName).value;
      && r.value.Keys == s.Keys + {m}
      && |r.value[m]| == (if m in s then |s[m]| else 0) + |mocks|
      && (m in s ==> r.value[m][..|s[m]|] == s[m])
      && r.value[m] == (if m in s then s[m] else []) + ReadMocks(service, methodName, mocks, encodeRequest, encodeResponse).value.1
      && forall k :: k in s && k != m ==> r.value[k] == s[k]
  {
    var (m, loaded) :- ReadMocks(service, methodName, mocks, encodeRequest, encodeResponse);
    Success(Append(s, m, loaded))
  }

  /** Mock `i` is the earliest in `ms` whose request body equals `bytes`. */
  predicate IsFirstMatch(ms: seq<Mock>, bytes: seq<byte>, i: nat)
  {
    && i < |ms|
    && Matches(ms[i].request.body, bytes)
    && forall j :: 0 <= j < i ==> !Matches(ms[j].request.body, bytes)
  }

  /** No mock in `ms` has a request body equal to `bytes`. */
  predicate NoMatch(ms: seq<Mock>, bytes: seq<byte>)
  {
    forall j :: 0 <= j < |ms| ==> !Matches(ms[j].request.body, bytes)
  }

  /** At most one mock is the first match. */
  lemma FirstMatchUnique(ms: seq<Mock>, bytes: seq<byte>, i: nat, j: nat)
    requires IsFirstMatch(ms, bytes, i) && IsFirstMatch(ms, bytes, j)
    ensures i == j
  {
  }

  /** `mocks.iter().find(|mock| mock.request.body() == body)`, as a position. */
  function FirstMatch(ms: seq<Mock>, bytes: seq<byte>): (r: Option<nat>)
    ensures r.Some? ==> IsFirstMatch(ms, bytes, r.value)
    ensures r.None? ==> NoMatch(ms, bytes)
  {
    if |ms| == 0 then None
    else if Matches(ms[0].request.body, bytes) then Some(0)
    else
      match FirstMatch(ms[1..], bytes)
      case None => None
      case Some(i) => Some(i + 1)
  }

  /** `MockSet::find`: the earliest mock of the method whose request body
      equals the bytes; nothing when the method has no entry or no body
      matches. Headers take no part. */
  function Find(s: MockSet, m: GrpcMethod, bytes: seq<byte>): (r: Option<Mock>)
    ensures r.None? <==> m !in s || NoMatch(s[m], bytes)
    ensures r.Some? ==> m in s && exists i: nat :: IsFirstMatch(s[m], bytes, i) && r.value == s[m][i]
  {
    if m !in s then None
    else
      match FirstMatch(s[m], bytes)
      case None => None
      case Some(i) => Some(s[m][i])
  }

  /** The first match in a list with a mock added at the end: an earlier
      match still wins; otherwise the new mock is found if it matches. */
  lemma {:induction false} FirstMatchAppend(ms: seq<Mock>, x: Mock, bytes: seq<byte>)
    ensures FirstMatch(ms + [x], bytes) ==
      if FirstMatch(ms, bytes).Some? then FirstMatch(ms, bytes)
      else if Matches(x.request.body, bytes) then Some(|ms|)
      else None
  {
    if |ms| > 0 {
      assert (ms + [x])[1..] == ms[1..] + [x];
      FirstMatchAppend(ms[1..], x, bytes);
    }
  }

  /** Inserting never takes a request away from the mock that answered it
      before, and touches no other method. */
  lemma FindAfterInsert(s: MockSet, m: GrpcMethod, x: Mock, k: GrpcMethod, bytes: seq<byte>)
    ensures k != m ==> Find(Insert(s, m, x), k, bytes) == Find(s, k, bytes)
    ensures Find(Insert(s, m, x), m, bytes) ==
      if Find(s, m, bytes).Some? then Find(s, m, bytes)
      else if Matches(x.request.body, bytes) then Some(x)
      else None
  {
    var prior := if m in s then s[m] else [];
    FirstMatchAppend(prior, x, bytes);
    if m !in s {
      assert prior + [x] == [x];
    }
  }

  /** Matching reads only request bodies: lists whose request bodies agree
      position by position have the same first match, whatever their
      headers or responses. */
  lemma {:induction false} FirstMatchOnlyReadsBodies(ms: seq<Mock>, ns: seq<Mock>, bytes: seq<byte>)
    requires |ms| == |ns|
    requires forall i :: 0 <= i < |ms| ==> ms[i].request.body == ns[i].request.body
    ensures FirstMatch(ms, bytes) == FirstMatch(ns, bytes)
  {
    if |ms| > 0 {
      FirstMatchOnlyReadsBodies(ms[1..], ns[1..], bytes);
    }
  }
}

=== FILE: scenarios.dfy ===
/** The outcomes the crate's integration tests expect (grpcmock-test/src),
    and an illustration on the `example.Hello` service of how a `Mock::new`
    mock answers, proved for every choice of the protobuf payloads involved. */
module Scenarios {

  import opened Wrappers
  import opened Errors
  import opened Bytes
  import opened Headers
  import opened Method
  import opened Mocks
  import Server
  import Status
  import Framing

  const Wrong := GrpcMethod("WrongService", "Hello")

  /** `GrpcMethod::new("WrongService", "Hello")` succeeds. */
  lemma WrongIsValid()
    ensures Valid(Wrong)
  {
    UndottedServiceCasing(Wrong.service);
  }

  /** The text of the mismatch error for the `example.Hello` server. */
  lemma MismatchText()
    ensures Display(Invalid(Server.MismatchMessage("example.Hello")))
      == "invalid: all mocks must be for `example.Hello` service"
  {
    var a, b, c := "all mocks must be for `", "example.Hello", "` service";
    assert "invalid: " + (a + b + c) == (("invalid: " + a) + b) + c;
    assert "invalid: " + a == "invalid: all mocks must be for `";
    assert "invalid: all mocks must be for `" + b == "invalid: all mocks must be for `example.Hello";
    assert "invalid: all mocks must be for `example.Hello" + c == "invalid: all mocks must be for `example.Hello` service";
  }

  /** A registry holding a mock for another service is refused, with the
      exact text the test compares against. */
  lemma WrongServiceRejected(mock: Mock, port: Server.Port)
    ensures var r := Server.NewServer("example.Hello", Insert(map[], Wrong, mock), port);
      r.Failure? && Display(r.error) == "invalid: all mocks must be for `example.Hello` service"
  {
    var mocks := Insert(map[], Wrong, mock);
    assert Wrong in mocks;
    assert Wrong.service != "example.Hello" by {
      assert Wrong.service[0] != "example.Hello"[0];
    }
    MismatchText();
  }

  const Hello := GrpcMethod("example.Hello", "HelloUnary")

  /** `GrpcMethod::new("example.Hello", "HelloUnary")` succeeds. */
  lemma HelloValid()
    ensures Valid(Hello)
  {
    assert "example.Hello" == "example" + "." + "Hello";
    DottedServiceCasing("example", "Hello");
  }

  /** The unary method is printed as `/example.Hello/HelloUnary`. */
  lemma HelloPrints()
    ensures ToString(Hello) == "/example.Hello/HelloUnary"
  {
  }

  /** Neither part of the unary method holds a `/`. */
  lemma HelloHasNoSlash()
    ensures '/' !in Hello.service && '/' !in Hello.name
  {
  }

  /** The printed path of the unary method parses back to it. */
  lemma HelloRoundTrip()
    ensures FromStr(ToString(Hello)) == Success(Hello)
  {
    HelloValid();
    HelloHasNoSlash();
    RoundTrip(Hello);
  }

  /** An illustrative registry for the unary method of the `example.Hello`
      test service: one `Mock::new` mock. No test builds it; the generation
      test below does the same for `Generate`. */
  function HelloMocks(request: seq<byte>, response: seq<byte>): MockSet
  {
    Insert(map[], Hello, NewMock(request, response))
  }

  /** The unary mock carries no error text. */
  lemma HelloMocksAreHeaderValues(request: seq<byte>, response: seq<byte>)
    ensures Server.ErrorsAreHeaderValues(HelloMocks(request, response))
  {
    var mocks := HelloMocks(request, response);
    assert mocks.Keys == {Hello};
    assert mocks[Hello] == [NewMock(request, response)];
  }

  /** A mock made with `Mock::new` answers its own request with status 0 and
      the framed response, with no message. The unary method is what its
      printed path parses to (HelloRoundTrip), so this is the answer `handle`
      gives to that path. */
  lemma HelloUnaryHit(request: seq<byte>, response: seq<byte>)
    ensures Server.Sendable(HelloMocks(request, response), Hello, Framing.Frame(request))
    ensures var hit := Server.Answer(HelloMocks(request, response), Hello, Framing.Frame(request));
      && Server.ReadStatus(hit) == Some(Status.Ok)
      && hit.body == Full(Framing.Frame(response))
      && Server.ReadMessage(hit) == None
  {
    HelloMocksAreHeaderValues(request, response);
    Server.ErrorsAreSendable(HelloMocks(request, response), Hello, Framing.Frame(request));
    var mocks := HelloMocks(request, response);
    var mock := NewMock(request, response);
    assert mocks[Hello] == [mock];
    assert IsFirstMatch(mocks[Hello], Framing.Frame(request), 0);
    assert mock.response.body == Full(Framing.Frame(response));
    assert Status.FromHttp(mock.response.httpCode) == Status.Ok;
  }

  /** Any other request to the unary method gets status 5, an empty body and
      no message. */
  lemma HelloUnaryMiss(request: seq<byte>, response: seq<byte>, other: seq<byte>)
    requires other != request
    ensures Server.Sendable(HelloMocks(request, response), Hello, Framing.Frame(other))
    ensures var miss := Server.Answer(HelloMocks(request, response), Hello, Framing.Frame(other));
      && Server.ReadStatus(miss) == Some(Status.NotFound)
      && miss.body == Empty
      && Server.ReadMessage(miss) == None
  {
    HelloMocksAreHeaderValues(request, response);
    Server.ErrorsAreSendable(HelloMocks(request, response), Hello, Framing.Frame(other));
    var mocks := HelloMocks(request, response);
    assert mocks[Hello] == [NewMock(request, response)];
    Framing.FrameInjective(other, request);
    assert NoMatch(mocks[Hello], Framing.Frame(other));
  }

  const Generate := GrpcMethod("tgis.GenerationService", "Generate")

  /** The generation method is valid. */
  lemma GenerateValid()
    ensures Valid(Generate)
  {
    assert "tgis" + "." == "tgis.";
    assert "tgis." + "GenerationService" == "tgis.GenerationService";
    DottedServiceCasing("tgis", "GenerationService");
  }

  /** Neither part of the generation method holds a `/`. */
  lemma GenerateHasNoSlash()
    ensures '/' !in Generate.service && '/' !in Generate.name
  {
  }

  /** The printed path of the generation method parses back to it. */
  lemma GenerateRoundTrip()
    ensures FromStr(ToString(Generate)) == Success(Generate)
  {
    GenerateValid();
    GenerateHasNoSlash();
    RoundTrip(Generate);
  }

  /** The registry of the generation test: `MockSet::with_mocks` with one
      `Mock::new` mock for `Generate`. */
  function GenerateMocks(request: seq<byte>, response: seq<byte>): MockSet
  {
    map[Generate := [NewMock(request, response)]]
  }

  /** The generation test's request is answered `Ok`, which is what its
      `is_ok` assertion needs, with the framed response and no message. */
  lemma GenerateIsOk(request: seq<byte>, response: seq<byte>)
    ensures Server.Sendable(GenerateMocks(request, response), Generate, Framing.Frame(request))
    ensures var a := Server.Answer(GenerateMocks(request, response), Generate, Framing.Frame(request));
      && Server.ReadStatus(a) == Some(Status.Ok)
      && a.body == Full(Framing.Frame(response))
      && Server.ReadMessage(a) == None
  {
    var mocks := GenerateMocks(request, response);
    var mock := NewMock(request, response);
    assert mocks[Generate] == [mock];
    assert IsFirstMatch(mocks[Generate], Framing.Frame(request), 0);
    assert Find(mocks, Generate, Framing.Frame(request)) == Some(mock);
    assert mock.response.body == Full(Framing.Frame(response));
    assert Status.FromHttp(mock.response.httpCode) == Status.Ok;
  }

  /** The first mock of the error-message test: HTTP 400 with a text. */
  function EmptyTextMock(empty: seq<byte>): Mock
  {
    Mock(NewRequest(Full(Framing.Frame(empty))),
         WithError(WithHttpCode(DefaultResponse, 400), "text cannot be empty"))
  }

  /** The second mock of the error-message test: HTTP 404 with a text. */
  function UnknownModelMock(invalid: seq<byte>): Mock
  {
    Mock(NewRequest(Full(Framing.Frame(invalid))),
         WithError(WithHttpCode(DefaultResponse, 404), "model not found"))
  }

  /** The registry of the error-message test: both mocks, in that order. */
  function ErrorMocks(empty: seq<byte>, invalid: seq<byte>): MockSet
  {
    Insert(Insert(map[], Generate, EmptyTextMock(empty)), Generate, UnknownModelMock(invalid))
  }

  /** What the registry of the error-message test holds. */
  lemma ErrorMocksContents(empty: seq<byte>, invalid: seq<byte>)
    ensures ErrorMocks(empty, invalid).Keys == {Generate}
    ensures ErrorMocks(empty, invalid)[Generate] == [EmptyTextMock(empty), UnknownModelMock(invalid)]
    ensures EmptyTextMock(empty).request.body == Full(Framing.Frame(empty))
    ensures UnknownModelMock(invalid).request.body == Full(Framing.Frame(invalid))
    ensures EmptyTextMock(empty).response.httpCode == 400
    ensures EmptyTextMock(empty).response.error == Some("text cannot be empty")
    ensures UnknownModelMock(invalid).response.httpCode == 404
    ensures UnknownModelMock(invalid).response.error == Some("model not found")
  {
  }

  /** The error texts of the test fit in a header value. */
  lemma ErrorTextsAreHeaderValues(empty: seq<byte>, invalid: seq<byte>)
    ensures Server.ErrorsAreHeaderValues(ErrorMocks(empty, invalid))
  {
    ErrorMocksContents(empty, invalid);
    assert ValidValue("text cannot be empty") && ValidValue("model not found");
  }

  /** The message of the first mock is matched by the first mock. */
  lemma ErrorMocksFirstHit(empty: seq<byte>, invalid: seq<byte>)
    ensures Generate in ErrorMocks(empty, invalid)
    ensures IsFirstMatch(ErrorMocks(empty, invalid)[Generate], Framing.Frame(empty), 0)
  {
    ErrorMocksContents(empty, invalid);
  }

  /** When the two messages differ, the message of the second mock is first
      matched by the second mock. */
  lemma ErrorMocksSecondHit(empty: seq<byte>, invalid: seq<byte>)
    requires empty != invalid
    ensures Generate in ErrorMocks(empty, invalid)
    ensures IsFirstMatch(ErrorMocks(empty, invalid)[Generate], Framing.Frame(invalid), 1)
  {
    ErrorMocksContents(empty, invalid);
    Framing.FrameInjective(empty, invalid);
  }

  /** The first mock of the error-message test: declared with HTTP 400, it
      reads as `Internal` with its text. */
  lemma EmptyTextIsInternal(empty: seq<byte>, invalid: seq<byte>)
    ensures Server.Sendable(ErrorMocks(empty, invalid), Generate, Framing.Frame(empty))
    ensures var a := Server.Answer(ErrorMocks(empty, invalid), Generate, Framing.Frame(empty));
      Server.ReadStatus(a) == Some(Status.Internal) && Server.ReadMessage(a) == Some("text cannot be empty")
  {
    ErrorTextsAreHeaderValues(empty, invalid);
    Server.ErrorsAreSendable(ErrorMocks(empty, invalid), Generate, Framing.Frame(empty));
    ErrorMocksContents(empty, invalid);
    ErrorMocksFirstHit(empty, invalid);
  }

  /** The second mock of the error-message test: declared with HTTP 404, it
      reads as `NotFound` with its text, even though the first mock was
      declared before it. */
  lemma UnknownModelIsNotFound(empty: seq<byte>, invalid: seq<byte>)
    requires empty != invalid
    ensures Server.Sendable(ErrorMocks(empty, invalid), Generate, Framing.Frame(invalid))
    ensures var b := Server.Answer(ErrorMocks(empty, invalid), Generate, Framing.Frame(invalid));
      Server.ReadStatus(b) == Some(Status.NotFound) && Server.ReadMessage(b) == Some("model not found")
  {
    ErrorTextsAreHeaderValues(empty, invalid);
    Server.ErrorsAreSendable(ErrorMocks(empty, invalid), Generate, Framing.Frame(invalid));
    ErrorMocksContents(empty, invalid);
    ErrorMocksSecondHit(empty, invalid);
  }

  /** A request whose message is neither of the two matches no mock. */
  lemma ErrorMocksMiss(empty: seq<byte>, invalid: seq<byte>, other: seq<byte>)
    requires other != empty && other != invalid
    ensures Generate in ErrorMocks(empty, invalid)
    ensures NoMatch(ErrorMocks(empty, invalid)[Generate], Framing.Frame(other))
  {
    ErrorMocksContents(empty, invalid);
    Framing.FrameInjective(other, empty);
    Framing.FrameInjective(other, invalid);
  }

  /** A request matching neither mock reads as `NotFound` without any text. */
  lemma UnmatchedGenerateIsNotFound(empty: seq<byte>, invalid: seq<byte>, other: seq<byte>)
    requires other != empty && other != invalid
    ensures Server.Sendable(ErrorMocks(empty, invalid), Generate, Framing.Frame(other))
    ensures var c := Server.Answer(ErrorMocks(empty, invalid), Generate, Framing.Frame(other));
      Server.ReadStatus(c) == Some(Status.NotFound) && Server.ReadMessage(c) == None
  {
    ErrorTextsAreHeaderValues(empty, invalid);
    Server.ErrorsAreSendable(ErrorMocks(empty, invalid), Generate, Framing.Frame(other));
    ErrorMocksMiss(empty, invalid, other);
  }

  /** The numeric `grpc-status` values the tests and clients rely on. */
  lemma StatusNumbers()
    ensures Status.Value(Status.Ok) == 0 && Status.Value(Status.Unknown) == 2
    ensures Status.Value(Status.NotFound) == 5 && Status.Value(Status.PermissionDenied) == 7
    ensures Status.Value(Status.Unimplemented) == 12 && Status.Value(Status.Internal) == 13
    ensures Status.Value(Status.Unavailable) == 14 && Status.Value(Status.Unauthenticated) == 16
  {
  }
}

=== FILE: server.dfy ===
/** The mock server (grpcmock/src/server.rs): the construction check, the
    request handler and the response it builds. The listening socket, the
    readiness loop and the async body stream are outside the model; the
    handler is a pure function of the path and the collected request bytes. */
module Server {

  import opened Wrappers
  import opened Errors
  import opened Bytes
  import opened Headers
  import opened Method
  import opened Mocks
  import Status

  /** A socket address: four IPv4 octets and a port. */
  datatype SocketAddr = SocketAddr(ip: seq<byte>, port: nat)

  /** The ports `find_available_port` draws from. Which one is free is decided
      by the operating system, so the port is an input here. */
  type Port = p: int | 40000 <= p < 60000 witness 40000

  /** `MockServer` without its background task. */
  datatype MockServer = MockServer(name: string, addr: SocketAddr, mocks: MockSet)

  function MismatchMessage(name: string): string
  {
    "all mocks must be for `" + name + "` service"
  }

  /** `MockServer::new`: refuses a registry holding any method of another
      service, before choosing an address; otherwise keeps the registry as
      given and listens on `0.0.0.0:<port>`. */
  function NewServer(name: string, mocks: MockSet, port: Port): (r: Result<MockServer, Error>)
    ensures r.Success? <==> forall m :: m in mocks ==> m.service == name
    ensures r.Failure? ==> r.error == Invalid(MismatchMessage(name))
    ensures r.Success? ==> r.value.name == name && r.value.mocks == mocks
    ensures r.Success? ==> r.value.addr == SocketAddr([0, 0, 0, 0], port)
  {
    if exists m :: m in mocks && m.service != name then Failure(Invalid(MismatchMessage(name)))
    else Success(MockServer(name, SocketAddr([0, 0, 0, 0], port), mocks))
  }

  /** An HTTP response: status, headers in the order added, body. */
  datatype Response = Response(status: nat, headers: seq<Header>, body: MockBody)

  const ContentType := "application/grpc"

  /** How a gRPC client reads the status of a response: the `grpc-status`
      value as a decimal number, then `Code::from_i32`. */
  function ReadStatus(r: Response): Option<Status.Code>
  {
    match Lookup(r.headers, "grpc-status")
    case None => None
    case Some(v) =>
      match ParseDecimal(v)
      case None => None
      case Some(n) => Some(Status.FromI32(n))
  }

  /** The raw `grpc-message` header value the crate sends. */
  function ReadMessage(r: Response): Option<string>
  {
    Lookup(r.headers, "grpc-message")
  }

  /** The headers `grpc_response` adds, in order. */
  function ResponseHeaders(status: string, error: Option<string>): seq<Header>
  {
    [Header("content-type", ContentType), Header("grpc-status", status)]
      + (match error case Some(e) => [Header("grpc-message", e)] case None => [])
  }

  /** Each of the three header names is found where `grpc_response` put it. */
  lemma ResponseHeadersLookup(status: string, error: Option<string>)
    ensures Lookup(ResponseHeaders(status, error), "content-type") == Some(ContentType)
    ensures Lookup(ResponseHeaders(status, error), "grpc-status") == Some(status)
    ensures Lookup(ResponseHeaders(status, error), "grpc-message") == error
  {
    var hs := ResponseHeaders(status, error);
    assert "content-type" != "grpc-status" && "content-type" != "grpc-message" && "grpc-status" != "grpc-message" by {
      assert "content-type"[0] != "grpc-status"[0];
      assert "grpc-status"[5] != "grpc-message"[5];
    }
    match error
    case None =>
      assert hs[1..][1..] == [];
    case Some(e) =>
      assert hs[1..][1..] == [Header("grpc-message", e)];
      assert Lookup(hs, "grpc-message") == Lookup(hs[1..][1..], "grpc-message");
  }

  /** Every value `grpc_response` puts in a header is a valid header value. */
  lemma ResponseHeadersValid(status: string, error: Option<string>)
    requires ValidValue(status)
    requires error.Some? ==> ValidValue(error.value)
    ensures forall i :: 0 <= i < |ResponseHeaders(status, error)| ==> ValidValue(ResponseHeaders(status, error)[i].value)
  {
    assert ValidValue(ContentType);
  }

  /** `grpc_response`: HTTP status 200, `content-type: application/grpc`, the
      numeric `grpc-status`, and `grpc-message` exactly when there is an
      error text. The builder's `unwrap` fails on an error text that is not
      a valid header value, hence the precondition. */
  function GrpcResponse(code: Status.Code, body: MockBody, error: Option<string>): (r: Response)
    requires error.Some? ==> ValidValue(error.value)
    ensures r.status == 200
    ensures Lookup(r.headers, "content-type") == Some(ContentType)
    ensures Lookup(r.headers, "grpc-status") == Some(Decimal(Status.Value(code)))
    ensures ReadStatus(r) == Some(code)
    ensures ReadMessage(r) == error
    ensures r.body == body
    ensures |r.headers| == if error.Some? then 3 else 2
    ensures forall i :: 0 <= i < |r.headers| ==> ValidValue(r.headers[i].value)
  {
    var status := Decimal(Status.Value(code));
    ParseDecimalOfDecimal(Status.Value(code));
    DecimalIsValidValue(Status.Value(code));
    ResponseHeadersLookup(status, error);
    ResponseHeadersValid(status, error);
    Response(200, ResponseHeaders(status, error), body)
  }

  /** The error text of the mock that answers `bytes` on method `m`, if any,
      can be sent as a header value: the one input on which `grpc_response`
      would panic is an answering mock whose text is not. A registry with an
      invalid text can still answer every request that the mock carrying it
      does not answer. */
  predicate Sendable(mocks: MockSet, m: GrpcMethod, bytes: seq<byte>)
  {
    var found := Find(mocks, m, bytes);
    found.Some? && found.value.response.error.Some? ==> ValidValue(found.value.response.error.value)
  }

  /** Every error text in the registry can be sent as a header value. */
  predicate ErrorsAreHeaderValues(mocks: MockSet)
  {
    forall m, i :: m in mocks && 0 <= i < |mocks[m]| && mocks[m][i].response.error.Some? ==>
      ValidValue(mocks[m][i].response.error.value)
  }

  /** A registry whose texts are all valid header values can answer every
      request. */
  lemma ErrorsAreSendable(mocks: MockSet, m: GrpcMethod, bytes: seq<byte>)
    requires ErrorsAreHeaderValues(mocks)
    ensures Sendable(mocks, m, bytes)
  {
  }

  /** The answer `MockServer::handle` gives once the path has named method
      `m`: look the whole request body up and answer with the first matching
      mock's status, body and error text, or with `NotFound`, an empty body
      and no message. The mock's own response headers are never sent: the
      answer carries the `grpc_response` headers and no others. */
  function Answer(mocks: MockSet, m: GrpcMethod, bytes: seq<byte>): (r: Response)
    requires Sendable(mocks, m, bytes)
    ensures r.status == 200 && Lookup(r.headers, "content-type") == Some(ContentType)
    ensures |r.headers| == if ReadMessage(r).Some? then 3 else 2
    ensures (m !in mocks || NoMatch(mocks[m], bytes)) ==>
      && ReadStatus(r) == Some(Status.NotFound)
      && Lookup(r.headers, "grpc-status") == Some(Decimal(Status.Value(Status.NotFound)))
      && r.body == Empty && ReadMessage(r) == None
    ensures forall i: nat :: m in mocks && IsFirstMatch(mocks[m], bytes, i) ==>
      && ReadStatus(r) == Some(Status.FromHttp(mocks[m][i].response.httpCode))
      && Lookup(r.headers, "grpc-status") == Some(Decimal(Status.Value(Status.FromHttp(mocks[m][i].response.httpCode))))
      && r.body == mocks[m][i].response.body
      && ReadMessage(r) == mocks[m][i].response.error
  {
    match Find(mocks, m, bytes)
    case Some(mock) =>
      assert forall i: nat, j: nat :: IsFirstMatch(mocks[m], bytes, i) && IsFirstMatch(mocks[m], bytes, j) ==> i == j by {
        forall i: nat, j: nat | IsFirstMatch(mocks[m], bytes, i) && IsFirstMatch(mocks[m], bytes, j)
          ensures i == j
        {
          FirstMatchUnique(mocks[m], bytes, i, j);
        }
      }
      GrpcResponse(GrpcCode(mock.response), mock.response.body, mock.response.error)
    case None =>
      GrpcResponse(Status.NotFound, Empty, None)
  }

  /** The decision logic of `MockServer::handle`: the path is parsed (the
      source unwraps the parse), then answered as its method. */
  function Dispatch(mocks: MockSet, path: string, bytes: seq<byte>): (r: Response)
    requires FromStr(path).Success?
    requires Sendable(mocks, FromStr(path).value, bytes)
    ensures r.status == 200 && Lookup(r.headers, "content-type") == Some(ContentType)
    ensures |r.headers| == if ReadMessage(r).Some? then 3 else 2
    ensures var m := FromStr(path).value;
      (m !in mocks || NoMatch(mocks[m], bytes)) ==>
        && ReadStatus(r) == Some(Status.NotFound)
        && Lookup(r.headers, "grpc-status") == Some(Decimal(Status.Value(Status.NotFound)))
        && r.body == Empty && ReadMessage(r) == None
    ensures var m := FromStr(path).value;
      forall i: nat :: m in mocks && IsFirstMatch(mocks[m], bytes, i) ==>
        && ReadStatus(r) == Some(Status.FromHttp(mocks[m][i].response.httpCode))
        && Lookup(r.headers, "grpc-status") == Some(Decimal(Status.Value(Status.FromHttp(mocks[m][i].response.httpCode))))
        && r.body == mocks[m][i].response.body
        && ReadMessage(r) == mocks[m][i].response.error
  {
    Answer(mocks, FromStr(path).value, bytes)
  }

  /** A request as the transport hands it over: the path, the headers, and
      the body as it arrived, in data frames. */
  datatype Request = Request(path: string, headers: seq<Header>, frames: seq<seq<byte>>)

  /** `MockServer::handle`: the body is collected to the end, in arrival
      order, whatever the shape of the RPC, and every request that reaches it
      gets a gRPC response. */
  function Handle(server: MockServer, request: Request): (r: Response)
    requires FromStr(request.path).Success?
    requires Sendable(server.mocks, FromStr(request.path).value, Concat(request.frames))
    ensures r.status == 200 && ReadStatus(r).Some?
    ensures Lookup(r.headers, "content-type") == Some(ContentType)
    ensures |r.headers| == if ReadMessage(r).Some? then 3 else 2
    ensures var found := Find(server.mocks, FromStr(request.path).value, Concat(request.frames));
      && (found.None? ==>
            && ReadStatus(r) == Some(Status.NotFound)
            && Lookup(r.headers, "grpc-status") == Some(Decimal(Status.Value(Status.NotFound)))
            && r.body == Empty && ReadMessage(r) == None)
      && (found.Some? ==>
            && ReadStatus(r) == Some(GrpcCode(found.value.response))
            && Lookup(r.headers, "grpc-status") == Some(Decimal(Status.Value(GrpcCode(found.value.response))))
            && r.body == found.value.response.body
            && ReadMessage(r) == found.value.response.error)
  {
    Dispatch(server.mocks, request.path, Concat(request.frames))
  }

  /** The response depends on the bytes received, not on how they were cut
      into frames, and not on the request headers. */
  lemma HandleReadsOnlyPathAndBytes(server: MockServer, a: Request, b: Request)
    requires FromStr(a.path).Success? && Sendable(server.mocks, FromStr(a.path).value, Concat(a.frames))
    requires a.path == b.path && Concat(a.frames) == Concat(b.frames)
    ensures Handle(server, a) == Handle(server, b)
  {
  }

  /** Only a first match declared with HTTP status 200 reads as success. */
  lemma DispatchOkIff(mocks: MockSet, path: string, bytes: seq<byte>)
    requires FromStr(path).Success? && Sendable(mocks, FromStr(path).value, bytes)
    ensures var m := FromStr(path).value;
      ReadStatus(Dispatch(mocks, path, bytes)) == Some(Status.Ok) <==>
        m in mocks && exists i: nat :: IsFirstMatch(mocks[m], bytes, i) && mocks[m][i].response.httpCode == 200
  {
    var m := FromStr(path).value;
    match FirstMatch(if m in mocks then mocks[m] else [], bytes)
    case None =>
    case Some(i) =>
      Status.FromHttpPreimages(mocks[m][i].response.httpCode);
  }

  /** A server that was built never answers from a mock of another service:
      whatever it finds belongs to the service it was created for. */
  lemma ServerAnswersOnlyItsService(name: string, mocks: MockSet, port: Port, m: GrpcMethod, bytes: seq<byte>)
    requires NewServer(name, mocks, port).Success?
    requires Find(NewServer(name, mocks, port).value.mocks, m, bytes).Some?
    ensures m.service == name
  {
  }
}

=== FILE: status.dfy ===
/** gRPC status codes and the crate's HTTP-to-gRPC status table
    (grpcmock/src/utils.rs, module `tonic`). */
module Status {

  import opened Wrappers

  /** `tonic::Code`: the seventeen status codes of the gRPC protocol. */
  datatype Code =
    | Ok | Cancelled | Unknown | InvalidArgument | DeadlineExceeded | NotFound
    | AlreadyExists | PermissionDenied | ResourceExhausted | FailedPrecondition
    | Aborted | OutOfRange | Unimplemented | Internal | Unavailable | DataLoss
    | Unauthenticated

  /** The numeric value of a code, as sent in the `grpc-status` header
      (`code as i32`). */
  function Value(c: Code): (n: nat)
    ensures n <= 16
    ensures FromI32(n) == c
  {
    match c
    case Ok => 0
    case Cancelled => 1
    case Unknown => 2
    case InvalidArgument => 3
    case DeadlineExceeded => 4
    case NotFound => 5
    case AlreadyExists => 6
    case PermissionDenied => 7
    case ResourceExhausted => 8
    case FailedPrecondition => 9
    case Aborted => 10
    case OutOfRange => 11
    case Unimplemented => 12
    case Internal => 13
    case Unavailable => 14
    case DataLoss => 15
    case Unauthenticated => 16
  }

  /** `Code::from_i32`, the client's reading of a `grpc-status` value: numbers
      outside the table read as `Unknown`. */
  function FromI32(n: int): Code
  {
    if n == 0 then Ok
    else if n == 1 then Cancelled
    else if n == 2 then Unknown
    else if n == 3 then InvalidArgument
    else if n == 4 then DeadlineExceeded
    else if n == 5 then NotFound
    else if n == 6 then AlreadyExists
    else if n == 7 then PermissionDenied
    else if n == 8 then ResourceExhausted
    else if n == 9 then FailedPrecondition
    else if n == 10 then Aborted
    else if n == 11 then OutOfRange
    else if n == 12 then Unimplemented
    else if n == 13 then Internal
    else if n == 14 then Unavailable
    else if n == 15 then DataLoss
    else if n == 16 then Unauthenticated
    else Unknown
  }

  /** Distinct codes are sent as distinct numbers. */
  lemma ValueInjective(a: Code, b: Code)
    ensures Value(a) == Value(b) <==> a == b
  {
    if Value(a) == Value(b) {
      assert FromI32(Value(a)) == FromI32(Value(b));
    }
  }

  /** A 16-bit unsigned integer, the argument type of `from_u16`. */
  type u16 = n: int | 0 <= n < 0x1_0000

  /** `http::StatusCode`: the values it accepts are exactly 100 through 999. */
  type StatusCode = n: int | 100 <= n <= 999 witness 200

  /** The HTTP status values the table names; every other one is `Unknown`. */
  const MappedStatuses: set<int> := {200, 400, 401, 403, 404, 422, 429, 501, 502, 503, 504}

  /** `CodeExt::from_http`. This is the crate's own table: 404 becomes
      `NotFound` and 400 becomes `Internal`, unlike the mapping published
      alongside the gRPC protocol. */
  function FromHttp(s: StatusCode): (c: Code)
    ensures c == Unknown <==> s !in MappedStatuses
    ensures c in {Ok, Internal, Unauthenticated, PermissionDenied, NotFound, Unimplemented, Unavailable, Unknown}
  {
    match s
    case 400 | 422 => Internal
    case 401 => Unauthenticated
    case 403 => PermissionDenied
    case 404 => NotFound
    case 501 => Unimplemented
    case 429 | 502 | 503 | 504 => Unavailable
    case 200 => Ok
    case _ => Unknown
  }

  /** Every code the table produces, with the exact set of statuses that
      produce it. In particular only 200 reads as success. */
  lemma FromHttpPreimages(s: StatusCode)
    ensures FromHttp(s) == Ok <==> s == 200
    ensures FromHttp(s) == Internal <==> s == 400 || s == 422
    ensures FromHttp(s) == Unauthenticated <==> s == 401
    ensures FromHttp(s) == PermissionDenied <==> s == 403
    ensures FromHttp(s) == NotFound <==> s == 404
    ensures FromHttp(s) == Unimplemented <==> s == 501
    ensures FromHttp(s) == Unavailable <==> s == 429 || s == 502 || s == 503 || s == 504
    ensures FromHttp(s) == Unknown <==> s !in MappedStatuses
  {
  }

  /** `http::status::InvalidStatusCode`. */
  datatype InvalidStatusCode = InvalidStatusCode

  /** `CodeExt::from_u16`: rejects what `StatusCode::from_u16` rejects, and
      otherwise agrees with `from_http`. */
  function FromU16(n: u16): (r: Result<Code, InvalidStatusCode>)
    ensures r.Failure? <==> n < 100 || 999 < n
    ensures r.Success? ==> r.value == FromHttp(n)
  {
    if n < 100 || 999 < n then Failure(InvalidStatusCode) else Success(FromHttp(n))
  }
}

=== FILE: wrappers.dfy ===
/** Option and Result types (only Result is failure-compatible, so only it
    works with `:-`), and an in-order traversal that stops at the first
    failure (the behaviour of Rust's `Iterator::collect::<Result<Vec<_>, _>>()`
    and of a `for` loop using `?`). */
module Wrappers {

  datatype Option<+T> = None | Some(value: T)

  datatype Result<+R, +E> = Success(value: R) | Failure(error: E) {

    predicate IsFailure() {
      Failure?
    }

    function PropagateFailure<U>(): Result<U, E>
      requires Failure?
    {
      Failure(error)
    }

    function Extract(): R
      requires Success?
    {
      value
    }
  }

  /** Applies `f` to every element in order; the first failure is the result,
      otherwise all results are collected in order. */
  function Traverse<A, B, E>(xs: seq<A>, f: A -> Result<B, E>): (r: Result<seq<B>, E>)
    ensures r.Success? <==> forall i :: 0 <= i < |xs| ==> f(xs[i]).Success?
    ensures r.Success? ==>
      |r.value| == |xs| && forall i :: 0 <= i < |xs| ==> f(xs[i]) == Success(r.value[i])
    ensures r.Failure? ==>
      exists i :: 0 <= i < |xs| && f(xs[i]) == Failure(r.error) &&
        forall j :: 0 <= j < i ==> f(xs[j]).Success?
  {
    if |xs| == 0 then Success([])
    else
      match f(xs[0])
      case Failure(e) => Failure(e)
      case Success(y) =>
        match Traverse(xs[1..], f)
        case Failure(e) =>
          Failure(e)
        case Success(ys) =>
          Success([y] + ys)
  }
}
